=== FILE: README.md ===
# Events platform catalogue, modelled in Dafny

This project models the core of an events platform. Ticket providers publish
their events, and the platform reconciles them into four tables:

- `Provider`: a provider, fed by one `ProviderResource`;
- `Event`: an event, owned by a provider;
- `EventDate`: one performance of an event, with its sale window;
- `Zone`: a seating zone of a date, with its capacity and its `rest`, the places left.

It also serves a public listing of the events whose sale window falls
inside an optional date range.

Three parts are modelled.

**The reconciler** is `ProviderResource.save_resource`, in `reconciler.dfy`.
It walks the provider's parsed records. For each record it finds the Event,
EventDate and Zone by natural key, or creates them:

- events are keyed by provider and `provider_event_id`;
- dates are keyed by event and `provider_date_id`;
- zones are keyed by `provider_zone_id`, across every date.

A record key that is missing raises `KeyError`, which ends the run. Nothing
wraps the run in a transaction. So the model returns `Aborted(key, store)`,
and that store keeps every row written before the failure.

Proved about the reconciler:

- a run keeps a well-formed store well-formed (`reconciler_validity.dfy`);
- runs compose over consecutive slices of the records;
- a failure keeps the rows written before it;
- a second run over the same records completes and creates nothing (`reconciler_runs.dfy`);
- that second run returns exactly the store the first one left (`reconciler_idempotence.dfy`).

**The schema's ownership rules** are in `schema.dfy`:

- deleting an event cascades to its dates and their zones;
- deleting a provider keeps its events, with the provider set to null;
- deleting a provider resource deletes its provider;
- `EventDate.is_sold_out` is modelled there too.

**The listing** is `EventListView` (`listing.dfy`) and its date parser
`check_date` (`services.dfy`):

- `dispatch` reads the optional `start_date` and `end_date` parameters through `check_date`;
- `get_queryset` keeps the active dates whose sale starts on or after the start bound and ends on or before the end bound;
- it then returns the active events that own such a date, in creation order.

`check_date` is modelled through the matcher Python's `strptime` builds for
`%Y-%m-%d`:

- four digits for the year;
- one or two digits for the month;
- one or two digits, or a space and a digit, for the day;
- the day checked against the month;
- year 0 refused.

Every parse failure becomes `None`. The time-zone step after the parse is
not modelled (see the `Services.CheckDate` line under "Left out").

The model follows the evident intent in six places where
`save_resource`, as written, cannot run or does not store what it reads:

- line 63 loops over `self._data`, which nothing assigns (`adapt_resource`, lines 49-54, sets only `_resource`); the model takes the parsed records as a parameter;
- line 79 reads `event.dates` on a dictionary; the model uses the dates of the found or created event;
- line 92 runs but assigns `event_date.event_date`, an attribute Django does not store, so `sale_end_date` is never set: a found date keeps a stale value and a new one would violate its non-null column; the model writes `sale_end_date`;
- line 93 saves the dictionary `date`; the model saves the EventDate row;
- line 110 reads `zones['rest']` from a query set; the model uses the record's `rest`;
- the new Zone never receives its required `capacity` (line 219); the model uses the record's `capacity`.

Three behaviours of the code are easy to misread, and the model follows the
code in each:

- a found event is reused as it stands: lines 64-68 never write its title or active flag;
- zones are matched by `provider_zone_id` across all dates (line 96 does not filter by date);
- nothing is transactional: no `atomic` block wraps the loop at line 63.

## Model

| member | source | states |
|---|---|---|
| Reconciler.ReconcileZone | project/src/event/models.py:95-111 | A zone found by `provider_zone_id` anywhere in the store has only its `rest` overwritten. Otherwise a new zone is appended under the date being saved, with a fresh id. The step completes exactly when the keys it reads are present. A failed step leaves the store unchanged. Events and dates are never touched. |
| Reconciler.ReconcileZones | project/src/event/models.py:95-111 | The loop over a date's zones only grows the store: existing rows keep their identity, owner and key. Events and dates are unchanged. |
| Reconciler.FindEvent | project/src/event/models.py:64-68 | The provider's event with the given `provider_event_id`: the earliest such row when one exists, and none exactly when no event of that provider has the key. |
| Reconciler.FindDate | project/src/event/models.py:79-83 | The event's date with the given `provider_date_id`: the earliest such row when one exists, and none exactly when no date of that event has the key. |
| Reconciler.FindZone | project/src/event/models.py:96-100 | The zone with the given `provider_zone_id`, whatever its date: the earliest such row when one exists, and none exactly when no zone has the key. |
| Reconciler.SaveDate | project/src/event/models.py:79-93 | After saving, the event has a date with the record's `provider_date_id`, and that row carries the record's `date`, `sale_start_date` and `sale_end_date`. A found date keeps its position and creates no row. A missing one is appended as an active date of the event, with a fresh id. No other date row changes. |
| Reconciler.ReconcileDate | project/src/event/models.py:78-95 | A missing date key aborts before anything is written. A missing `zones` key aborts after the date row was saved. A completed step leaves the date row carrying the record's timestamps. |
| Reconciler.ReconcileDates | project/src/event/models.py:78-111 | The loop over an event's dates only grows the store and never changes the events. |
| Reconciler.ReconcileEventDates | project/src/event/models.py:78 | A record without a `dates` key aborts with that key, once the event row exists. |
| Reconciler.ReconcileEvent | project/src/event/models.py:63-78 | A missing `provider_event_id` aborts with nothing written. An event the provider already has is reused, and the event table is unchanged. Otherwise a missing `title` or `active` aborts, and a complete record appends a new event owned by the provider, with a fresh id and creation stamp. |
| Reconciler.WithNewEvent | project/src/event/models.py:69-78 | When the provider has no event under the key, the event step appends one new event owned by the provider. The new event is the one the key then finds, and the record's dates are processed under its id. |
| Reconciler.SaveResource | project/src/event/models.py:56-111 | A run only grows the store. Every event it creates belongs to the provider being reconciled. |
| ReconcilerValidity.ZoneKeepsValid | project/src/event/models.py:95-111 | One zone step keeps the store well-formed: `provider_zone_id` stays unique, ids stay fresh, and every zone's date exists. |
| ReconcilerValidity.ZonesKeepValid | project/src/event/models.py:95-111 | The zone loop keeps the store well-formed, whether or not it completes. |
| ReconcilerValidity.SaveDateKeepsValid | project/src/event/models.py:79-93 | Saving a date keeps at most one date per event and `provider_date_id`. The id it returns names an existing date. |
| ReconcilerValidity.DateKeepsValid | project/src/event/models.py:78-111 | One date record, processed completely or partly, leaves a well-formed store. |
| ReconcilerValidity.DatesKeepValid | project/src/event/models.py:78-111 | The date loop keeps the store well-formed. |
| ReconcilerValidity.EventDatesKeepValid | project/src/event/models.py:78-111 | Processing an event record's `dates`, once the event row exists, keeps the store well-formed. |
| ReconcilerValidity.NewEventKeepsValid | project/src/event/models.py:69-76 | Appending a new event under a key the provider does not have yet keeps keys unique, creation order strict and ids fresh. |
| ReconcilerValidity.FoundEventKeepsValid | project/src/event/models.py:64-68 | A record for an event the provider already has keeps the store well-formed. |
| ReconcilerValidity.CreatedEventKeepsValid | project/src/event/models.py:69-78 | A complete record for a new event keeps the store well-formed. |
| ReconcilerValidity.EventKeepsValid | project/src/event/models.py:63-111 | One event record keeps at most one event per provider and `provider_event_id`, and keeps creation order and references intact. |
| ReconcilerValidity.SaveResourceKeepsValid | project/src/event/models.py:56-111 | Any run, including one stopped by a `KeyError`, leaves a well-formed store: unique natural keys, fresh ids and no dangling references. |
| ReconcilerRuns.SaveResourceAppend | project/src/event/models.py:63-111 | Processing `a + b` is processing `a`, then `b` on the store it left. A failure inside `a` ends the run there. |
| ReconcilerRuns.EarlierRowsSurviveKeyError | project/src/event/models.py:63-65 | A record without `provider_event_id` raises a key error, and the rows written for the records before it stay. |
| ReconcilerRuns.FindEventStable | project/src/event/models.py:64-68 | Once an event is found by its natural key, the same row is found in any larger store. |
| ReconcilerRuns.FindDateStable | project/src/event/models.py:79-83 | Once a date is found by its natural key, the same row is found in any larger store. |
| ReconcilerRuns.FindZoneStable | project/src/event/models.py:96-100 | Once a zone is found by `provider_zone_id`, the same row is found in any larger store. |
| ReconcilerRuns.ZoneSettledStable | project/src/event/models.py:96-100 | A zone record whose row exists still has its row after the store grows. |
| ReconcilerRuns.DateSettledStable | project/src/event/models.py:79-100 | A date record whose rows all exist still has them after the store grows. |
| ReconcilerRuns.EventSettledStable | project/src/event/models.py:64-100 | An event record whose rows all exist still has them after the store grows. |
| ReconcilerRuns.ZoneRunSettles | project/src/event/models.py:95-111 | A completed zone step leaves a row for the record's `provider_zone_id`. |
| ReconcilerRuns.ZonesRunSettles | project/src/event/models.py:95-111 | A completed zone loop leaves a row for every zone record. |
| ReconcilerRuns.DateRunSettles | project/src/event/models.py:78-111 | A completed date step leaves rows for the date and all of its zones. |
| ReconcilerRuns.DatesRunSettles | project/src/event/models.py:78-111 | A completed date loop leaves rows for every date record and its zones. |
| ReconcilerRuns.FoundEventRunSettles | project/src/event/models.py:64-68 | A completed step for an event the provider already had leaves rows for its dates and zones under that event. |
| ReconcilerRuns.CreatedEventRunSettles | project/src/event/models.py:69-111 | A completed step for a new event leaves the event findable by its key, with rows for its dates and zones. |
| ReconcilerRuns.EventRunSettles | project/src/event/models.py:63-111 | A completed event step leaves rows for the event, its dates and their zones. |
| ReconcilerRuns.SaveResourceSettles | project/src/event/models.py:56-111 | After a completed run, every record it read has all its rows in the store. |
| ReconcilerRuns.ZoneSettledRun | project/src/event/models.py:95-111 | A zone record whose row exists is processed without error and adds no row. |
| ReconcilerRuns.ZonesSettledRun | project/src/event/models.py:95-111 | Zone records whose rows all exist are processed without error and add no row. |
| ReconcilerRuns.DateSettledRun | project/src/event/models.py:78-111 | A date record whose rows all exist is processed without error and adds no row. |
| ReconcilerRuns.DatesSettledRun | project/src/event/models.py:78-111 | Date records whose rows all exist are processed without error and add no row. |
| ReconcilerRuns.EventSettledRun | project/src/event/models.py:63-111 | An event record whose rows all exist is processed without error and adds no row. |
| ReconcilerRuns.SaveResourceSettledRun | project/src/event/models.py:56-111 | A run over records whose rows all exist completes and adds no row. |
| Schema.ExtendsTransitive | project/src/event/models.py:56-111 | Growth of the store composes over consecutive steps of a run. |
| Schema.DeleteEvent | project/src/event/models.py:187-191 | Deleting an event removes exactly that event, its dates, and the zones of those dates (the CASCADE at lines 227-231). Nothing else is removed. Key uniqueness is preserved. |
| Schema.DeleteEventKeepsValid | project/src/event/models.py:187-191 | After the cascade, every surviving date still has its event and every surviving zone its date. |
| Schema.Nullify | project/src/event/models.py:156-162 | Setting the provider field of the events of removed providers to null keeps every event in place. Only that field changes, and only where it named a removed provider. |
| Schema.NullifyKeepsPairs | project/src/event/models.py:156-162 | Setting provider references to null keeps event ids distinct, keeps creation order, and keeps at most one event per provider and key. |
| Schema.DetachedStoreValid | project/src/event/models.py:156-162 | A store whose removed providers are gone and whose events point at them through a null reference is well-formed when the original was. |
| Schema.DetachProviders | project/src/event/models.py:156-162 | Removing providers keeps every event and changes only their provider field: it becomes null where it named a removed provider and stays as it was everywhere else. Dates, zones and the id counter are untouched, and well-formedness is preserved. |
| Schema.DeleteProvider | project/src/event/models.py:156-162 | After deleting a provider it is gone and every other provider stays. All of its events remain with a null provider, every other event is unchanged, and dates, zones and the id counter are untouched. |
| Schema.DeleteProviderResource | project/src/event/models.py:125-129 | Deleting a provider resource removes exactly the provider it feeds. In a well-formed store every other provider stays. All events remain. An event of the deleted provider gets a null provider, and every other event keeps its provider. Dates, zones and the id counter are untouched. |
| Schema.AnyZoneLeft | project/src/event/models.py:205 | True exactly when some zone of the date has a place left. |
| Schema.IsSoldOut | project/src/event/models.py:201-205 | A date is sold out exactly when none of its zones has a place left. A date without zones counts as sold out. |
| Seqs.Filter | project/src/event/views.py:21-34 | A row is in the result exactly when it is in the input and passes. Whatever pairwise relation held between the input's rows still holds between the result's rows. |
| Seqs.FilterCounts | project/src/event/views.py:21-34 | Filtering keeps every passing row exactly as many times as it occurs in the input, and no row that fails. |
| Seqs.FilterNone | project/src/event/views.py:21-34 | A filter no row passes returns nothing. |
| Seqs.FindFirst | project/src/event/models.py:64-68 | `.first()` of a filtered query: the first row that matches, or none when no row matches. |
| Seqs.PairwiseAppend | project/src/event/models.py:70-76 | Appending a row that is compatible with every existing row keeps the table pairwise compatible. |
| Seqs.PairwiseReplace | project/src/event/models.py:110-111 | Replacing a row with one compatible with all the others keeps the table pairwise compatible. |
| Calendar.DaysInMonth | project/src/event/services.py:17 | The Gregorian month length that `strptime` checks days against: 28 to 31 days: 31 exactly in January, March, May, July, August, October and December; 30 exactly in April, June, September and November; 29 exactly in February of a leap year. |
| Services.Strptime | project/src/event/services.py:17 | A parsed day is a real calendar day. The text it came from is eight to ten characters long, with a dash after a four-digit year that reads as the day's year. |
| Services.CheckDate | project/src/event/services.py:6-23 | An absent parameter gives `None`, and any day returned is a real calendar day in years 1 to 9999. |
| ReconcilerIdempotence.ZoneLands | project/src/event/models.py:95-111 | A completed zone step writes the record's `rest` into the zone its key finds in a reference store that the result grows into. No other zone's `rest` and no date's timestamps change. |
| ReconcilerIdempotence.ZonesLand | project/src/event/models.py:95-111 | After a completed zone loop, each zone holds the `rest` of the last record naming it. Every other zone keeps its `rest`, and every date keeps its timestamps. |
| ReconcilerIdempotence.SaveDateLands | project/src/event/models.py:79-93 | Saving a date puts the record's three timestamps into the row its key finds in the reference store. No other date's timestamps and no zone's `rest` change. |
| ReconcilerIdempotence.DateLands | project/src/event/models.py:78-111 | A completed date record writes its date's timestamps, then its zones' `rest`. No other timestamps and no other `rest` change. |
| ReconcilerIdempotence.DatesLand | project/src/event/models.py:78-111 | After the date loop, each written date and zone holds the values of the last record that wrote it. All other dates and zones keep theirs. |
| ReconcilerIdempotence.FoundEventLands | project/src/event/models.py:64-111 | For an event that already exists, a completed step changes only the timestamps of its dates and the `rest` of the zones its zone records' keys find, which may belong to another event's date, to the record's values. |
| ReconcilerIdempotence.CreatedEventLands | project/src/event/models.py:69-111 | For a new event, a completed step writes only the timestamps of its dates and the `rest` of the zones its zone records' keys find, at the positions the reference store gives. Rows already present keep their other values. |
| ReconcilerIdempotence.EventLands | project/src/event/models.py:63-111 | Any completed event step writes only date timestamps and zone `rest` values, each at the position its key has in the reference store. |
| ReconcilerIdempotence.RunLands | project/src/event/models.py:63-111 | After a completed run, every written date and zone holds the last value written to it. Every other date keeps its timestamps and every other zone its `rest`. |
| ReconcilerIdempotence.WritesAlreadyLanded | project/src/event/models.py:63-111 | When the writes of a run have already landed in the store it starts from, and the run adds no row, it returns that store unchanged. |
| ReconcilerIdempotence.SaveResourceIdempotent | project/src/event/models.py:63-111 | After a completed run, a second run over the same records returns exactly the store the first one left: no row is created, no id is handed out, and every rewritten field already holds its value. |
| Services.CheckDateSpells | project/src/event/services.py:15-23 | `check_date` returns day `d` exactly when the text is one of the `%Y-%m-%d` spellings of `d`. These spellings are: the padded year, then the month padded or not, then the day padded, unpadded or padded with a space. |
| Services.AcceptedIsSpelled | project/src/event/services.py:15-19 | Any text `check_date` accepts spells the day it returns. |
| Services.SpelledIsAccepted | project/src/event/services.py:15-19 | Any spelling of a real day is accepted as that day. |
| Services.CheckDateRoundTrip | project/src/event/services.py:15-19 | A real day written as `YYYY-MM-DD` reads back as the same day. |
| Services.CheckDateCanonical | project/src/event/services.py:15-19 | Accepted ten-character text without a space-padded day is exactly the formatted day. |
| Services.CheckDateRefuses | project/src/event/services.py:20-23 | Non-date text (`sda`), month 13, 30 February and year 0 all give `None`, and none raises an error. |
| Services.MonthFieldSpec | project/src/event/services.py:17 | `%m` reads text as month `m` exactly when the text is one of the spellings of `m`. |
| Services.DayFieldSpec | project/src/event/services.py:17 | `%d` reads text as day `d` exactly when the text is one of the spellings of `d`. |
| Services.YearFieldInverse | project/src/event/services.py:17 | `%Y` reads a padded four-digit year back as that year. |
| Services.TwoDigitsInverse | project/src/event/services.py:17 | Two padded digits read back as the number they pad. |
| Listing.HasQualifyingDate | project/src/event/views.py:21-31 | True exactly when the event owns an active date whose sale window lies within the bounds. |
| Listing.ListActive | project/src/event/views.py:20-34 | The listing holds exactly the active events that own a qualifying date, in the store's order. With no qualifying date at all it is empty. |
| Listing.ListEvents | project/src/event/views.py:15-34 | End to end: the parameters go through `check_date`, and the listing holds exactly the active events owning a date within the bounds that were read. |
| Listing.ListedInCreationOrder | project/src/event/models.py:165-166 | In a well-formed store the listing is in strictly increasing creation order (`ordering = ['created']`), so no event appears twice. |
| Listing.StartAfterEverySaleListsNothing | project/src/event/tests/integration_tests.py:56-68 | A start bound later than every sale start gives an empty listing. |
| Listing.UnreadableParameterIgnored | project/src/event/views.py:15-31 | Any start parameter that spells no day gives the same listing as no start parameter. |
| Listing.MalformedParameterIgnored | project/src/event/tests/integration_tests.py:84-94 | The integration test's case: the start parameter `sda` gives the same listing as no start parameter. |
| Listing.BoundsOnlyNarrow | project/src/event/views.py:23-31 | Adding bounds can only remove events from the listing. |
| Listing.ListActiveAsWritten | project/src/event/views.py:33-34 | As written, the listing holds the active events whose own id equals the id of some qualifying date, in creation order. |
| Listing.IdMismatchShows | project/src/event/tests/integration_tests.py:32-54 | On the date-range test's store, the code as written lists the event that has no date and leaves out the event that owns the qualifying date. The intended rule does the opposite. |

## Left out

- Fetching the provider URL and detecting JSON or XML (`get_external_resource`, models.py:29-47): network I/O. The model starts from the parsed records.
- `adapt_resource` (models.py:49-54): it only triggers the fetch and never assigns `_data`, so line 63 would loop over `None`. The records are a parameter of `SaveResource`.
- The periodic Celery task (tasks.py): it calls `save_resource` once per provider. No handler catches a `KeyError`, so one failing provider stops the rest. This is scheduling, not modelled.
- URL routing, the serializer and the HTTP response: presentation only.
- `uuid`, `updated`, and the `created` stamps of providers, dates and zones are not modelled. For events, the id counter stands in for `created`.
- Services.CheckDate: the step at lines 20-21 that attaches the current time zone to the parsed midnight is taken to succeed and return the same day. With pytz, `localize(..., is_dst=None)` raises `NonExistentTimeError` or `AmbiguousTimeError` when midnight is skipped or repeated by a daylight-saving change, and `OverflowError` for 0001-01-01 or 9999-12-31 in a zone with such changes; lines 22-23 catch only `ValueError` and `TypeError`. Whether this can happen depends on `TIME_ZONE` in the settings, which are not part of this model.
- Sale-window timestamps are taken to be in the current time zone already, so comparing them with the bounds compares days.
- Unicode digits: Python's `\d` also matches non-ASCII decimal digits. Only ASCII digits are modelled.
- `FormatDate` pads every year to four digits. `strftime` does not pad years below 1000 on every platform, so such years appear only in the model's round trip.
- Column limits are not enforced: `max_length` of the char fields, the five-digit `Decimal` price (modelled as whole cents) and the upper bound of `PositiveIntegerField`.
- Row order for `.first()`: dates and zones are ordered by `date` in the database, while the model takes the first in insertion order. Under the uniqueness invariant at most one row matches, so the two agree.
- Reconciler.ReconcileEvent: found events are not updated with the record's title or active flag, because lines 64-68 never write them.
- Reconciler.ReconcileDate: models the evident intent at lines 79, 92 and 93 (the event row's dates, `sale_end_date`, saving the EventDate). As written, line 79 raises `AttributeError` on the first record that has dates.
- Reconciler.ReconcileZone: reads the record's `rest` and `capacity` (lines 110 and 219). As written, line 110 raises `TypeError`, and a new zone without `capacity` would violate its non-null column.
- Schema.IsSoldOut: counts places left through `rest`. Line 205 filters on `sold`, a field `Zone` does not declare, so as written the query raises a `FieldError`.
- Ids: one counter numbers the rows of every table, while Django numbers each table on its own. Well-formedness allows either numbering. On stores built by `SaveResource` an event and a date therefore never share an id, so the id mix-up at views.py:34 is exhibited on a hand-built store (`Listing.IdMismatchShows`) rather than on a reconciled one.
- A transaction around the run is not modelled: there is none in the code, which is why an aborted run keeps its partial writes.

## Findings

| source | as written | input that shows it | evidently intended | confidence | as-written member | corrected member |
|---|---|---|---|---|---|---|
| project/src/event/views.py:33-34 | The ids of the qualifying EventDate rows are compared with Event ids (`id__in=event_dates_ids`) | Event 1 owns date 1, outside the window, and date 2, inside 2019-06-11 to 2019-06-12. Event 2 owns no date. The code lists event 2 and not event 1. The date-range integration test (integration_tests.py:32-54) expects exactly this result. | Select the events that own a qualifying date (`dates__in` / `id__in` over `event_date.event_id`) | not executed | Listing.ListActiveAsWritten, Listing.IdMismatchShows | Listing.ListActive |

=== FILE: calendar.dfy ===
/** Calendar dates and wall-clock timestamps.

    A `DateTime` is a local timestamp split into its calendar day and the
    second within that day; the `__date` lookups of the listing filter read
    the `date` part. Time zones are not modelled: every timestamp is taken
    to be already expressed in the server's current time zone. */
module Calendar {

  datatype Date = Date(year: int, month: int, day: int)

  datatype DateTime = DateTime(date: Date, secondOfDay: nat)

  /** Gregorian leap-year rule, as used by Python's `datetime`. */
  predicate IsLeapYear(y: int) {
    y % 4 == 0 && (y % 100 != 0 || y % 400 == 0)
  }

  function DaysInMonth(y: int, m: int): (n: int)
    requires 1 <= m <= 12
    ensures 28 <= n <= 31
    ensures n == 31 <==> m in {1, 3, 5, 7, 8, 10, 12}
    ensures n == 30 <==> m in {4, 6, 9, 11}
    ensures n == 29 <==> m == 2 && IsLeapYear(y)
  {
    if m == 2 then (if IsLeapYear(y) then 29 else 28)
    else if m in {4, 6, 9, 11} then 30
    else 31
  }

  /** The dates Python's `datetime.date` can represent (MINYEAR = 1,
      MAXYEAR = 9999). */
  predicate ValidDate(d: Date) {
    && 1 <= d.year <= 9999
    && 1 <= d.month <= 12
    && 1 <= d.day <= DaysInMonth(d.year, d.month)
  }

  /** Chronological order on calendar days: `a <= b`. */
  predicate OnOrBefore(a: Date, b: Date) {
    || a.year < b.year
    || (a.year == b.year && a.month < b.month)
    || (a.year == b.year && a.month == b.month && a.day <= b.day)
  }
}

=== FILE: listing.dfy ===
/** The public event listing (`EventListView`, project/src/event/views.py).

    `dispatch` reads the optional `start_date` and `end_date` query
    parameters through `check_date`; `get_queryset` keeps the active dates
    whose sale window lies inside the given bounds and returns the active
    events that own such a date, in creation order.

    As written, line 33 collects the ids of the qualifying dates and line
    34 selects the events whose own id is among them, comparing EventDate
    ids with Event ids. `ListActive` models the evident intent, "the event
    owns a qualifying date"; `ListActiveAsWritten` models the code as it
    stands, and `IdMismatchShows` exhibits a store on which the two
    differ. */
module Listing {
  import opened Optional
  import opened Calendar
  import opened Seqs
  import opened Schema
  import opened Services

  /** An EventDate qualifies when it is active, its sale starts on or after
      the start bound and its sale ends on or before the end bound; an
      absent bound constrains nothing. Both comparisons use the calendar
      day of the timestamp. */
  predicate DateQualifies(d: EventDate, start: Option<Date>, end: Option<Date>) {
    && d.active
    && (start.Some? ==> OnOrBefore(start.value, d.saleStartDate.date))
    && (end.Some? ==> OnOrBefore(d.saleEndDate.date, end.value))
  }

  /** Whether event `eventId` owns a qualifying date. */
  function HasQualifyingDate(dates: seq<EventDate>, eventId: nat, start: Option<Date>, end: Option<Date>): (r: bool)
    ensures r <==> exists d :: d in dates && d.event == eventId && DateQualifies(d, start, end)
  {
    if |dates| == 0 then false
    else
      (dates[0].event == eventId && DateQualifies(dates[0], start, end))
      || HasQualifyingDate(dates[1..], eventId, start, end)
  }

  /** `get_queryset`, as intended: the active events that own a qualifying
      date, each once, in creation order. */
  function ListActive(s: Store, start: Option<Date>, end: Option<Date>): (r: seq<Event>)
    ensures forall e :: e in r <==>
      && e in s.events
      && e.active
      && exists d :: d in s.dates && d.event == e.id && DateQualifies(d, start, end)
    ensures Pairwise(s.events, CreatedBefore) ==> Pairwise(r, CreatedBefore)
    ensures (forall d :: d in s.dates ==> !DateQualifies(d, start, end)) ==> r == []
  {
    var keep := (e: Event) => e.active && HasQualifyingDate(s.dates, e.id, start, end);
    var r := Filter(s.events, keep);
    assert Pairwise(s.events, CreatedBefore) ==> Pairwise(r, CreatedBefore);
    assert (forall d :: d in s.dates ==> !DateQualifies(d, start, end)) ==> r == [] by {
      if forall d :: d in s.dates ==> !DateQualifies(d, start, end) {
        FilterNone(s.events, keep);
      }
    }
    r
  }

  /** The view end to end: the query parameters go through `check_date`
      first, so a parameter that is absent or does not parse drops that
      bound. */
  function ListEvents(s: Store, startParam: Option<string>, endParam: Option<string>): (r: seq<Event>)
    ensures forall e :: e in r <==>
      && e in s.events
      && e.active
      && exists d :: d in s.dates && d.event == e.id && DateQualifies(d, CheckDate(startParam), CheckDate(endParam))
  {
    ListActive(s, CheckDate(startParam), CheckDate(endParam))
  }

  /** In a well-formed store events are held in creation order, so the
      listing is in strictly increasing `created` order, which also means
      no event is listed twice. */
  lemma ListedInCreationOrder(s: Store, start: Option<Date>, end: Option<Date>)
    requires Valid(s)
    ensures Pairwise(ListActive(s, start, end), CreatedBefore)
    ensures forall i, j :: 0 <= i < j < |ListActive(s, start, end)| ==> ListActive(s, start, end)[i] != ListActive(s, start, end)[j]
  {
    assert Pairwise(s.events, CreatedBefore) by {
      forall i, j | 0 <= i < j < |s.events| ensures CreatedBefore(s.events[i], s.events[j]) {
        assert EventPairOk(s.events[i], s.events[j]);
      }
    }
    var r := ListActive(s, start, end);
    forall i, j | 0 <= i < j < |r| ensures r[i] != r[j] {
      assert CreatedBefore(r[i], r[j]);
    }
  }

  /** A start bound later than every sale start leaves nothing to list. */
  lemma StartAfterEverySaleListsNothing(s: Store, start: Date, end: Option<Date>)
    requires forall d :: d in s.dates ==> !OnOrBefore(start, d.saleStartDate.date)
    ensures ListActive(s, Some(start), end) == []
  {
    assert forall d :: d in s.dates ==> !DateQualifies(d, Some(start), end);
  }

  /** A parameter `check_date` cannot read, because it spells no day, is
      treated exactly like an absent one. */
  lemma UnreadableParameterIgnored(s: Store, text: string, endParam: Option<string>)
    requires forall d :: !Spells(text, d)
    ensures ListEvents(s, Some(text), endParam) == ListEvents(s, None, endParam)
  {
    if CheckDate(Some(text)).Some? {
      CheckDateSpells(text, CheckDate(Some(text)).value);
      assert false;
    }
  }

  /** The integration test's case: `sda` is ignored. */
  lemma MalformedParameterIgnored(s: Store, endParam: Option<string>)
    ensures ListEvents(s, Some("sda"), endParam) == ListEvents(s, None, endParam)
  {
    CheckDateRefuses();
  }

  /** Adding a bound can only remove events from the listing. */
  lemma BoundsOnlyNarrow(s: Store, start: Option<Date>, end: Option<Date>)
    ensures forall e :: e in ListActive(s, start, end) ==> e in ListActive(s, None, None)
  {
  }

  // ---------------------------------------------------------------------
  // The code as written

  /** Line 34 as written: active events whose own id is the id of some
      qualifying date. */
  function ListActiveAsWritten(s: Store, start: Option<Date>, end: Option<Date>): (r: seq<Event>)
    ensures forall e :: e in r <==>
      && e in s.events
      && e.active
      && exists d :: d in s.dates && d.id == e.id && DateQualifies(d, start, end)
    ensures Pairwise(s.events, CreatedBefore) ==> Pairwise(r, CreatedBefore)
  {
    // line 33 collects the ids of the qualifying dates
    var ids := set d | d in s.dates && DateQualifies(d, start, end) :: d.id;
    var r := Filter(s.events, (e: Event) => e.active && e.id in ids);
    assert Pairwise(s.events, CreatedBefore) ==> Pairwise(r, CreatedBefore);
    r
  }

  /** The store of the date-range integration test: event 1 owns date 1,
      outside the window, and date 2, inside it; event 2 owns no date. */
  function MismatchStore(): Store {
    var e1 := Event(1, 1, "Concert", true, None, 291);
    var e2 := Event(2, 2, "Theater", true, None, 322);
    var d1 := EventDate(1, DateTime(Date(2019, 6, 1), 0), DateTime(Date(2019, 6, 1), 0),
                        DateTime(Date(2019, 6, 1), 0), true, 1, 1);
    var d2 := EventDate(2, DateTime(Date(2019, 6, 20), 0), DateTime(Date(2019, 6, 11), 0),
                        DateTime(Date(2019, 6, 12), 0), true, 1, 2);
    Store([], [e1, e2], [d1, d2], [], 3)
  }

  /** On that store, with the window 2019-06-11 to 2019-06-12, the code as
      written lists event 2, which has no date at all, and leaves out
      event 1, which owns the qualifying date; the intended rule does the
      opposite. */
  lemma IdMismatchShows()
    ensures
      var s, start, end := MismatchStore(), Some(Date(2019, 6, 11)), Some(Date(2019, 6, 12));
      && s.events[1] in ListActiveAsWritten(s, start, end)
      && s.events[0] !in ListActiveAsWritten(s, start, end)
      && s.events[0] in ListActive(s, start, end)
      && s.events[1] !in ListActive(s, start, end)
  {
    var s, start, end := MismatchStore(), Some(Date(2019, 6, 11)), Some(Date(2019, 6, 12));
    assert DateQualifies(s.dates[1], start, end) && !DateQualifies(s.dates[0], start, end);
    assert s.dates[1] in s.dates;
    forall d | d in s.dates && DateQualifies(d, start, end) ensures d.id == 2 && d.event == 1 {
    }
  }
}

=== FILE: optional.dfy ===
/** Python's `None`-or-value, used for absent dictionary keys and for the
    optional results of the date parser. */
module Optional {

  datatype Option<+T> = None | Some(value: T)
}

=== FILE: reconciler.dfy ===
/** `ProviderResource.save_resource` (project/src/event/models.py:56-111):
    walks the provider's parsed event records and finds or creates the
    matching Event, EventDate and Zone rows.

    A record is a Python dictionary; here every key is an `Option`, `None`
    meaning the key is absent. Reading an absent key raises `KeyError`,
    which ends the run. Nothing wraps the run in a transaction, so the rows
    written before the failing read stay: an aborted outcome carries the
    store as it stood at that moment.

    The code as written departs from its evident intent in five places;
    the model follows the intent:
      - line 79 filters `event.dates` on the input dictionary; intended is
        the dates of the found or created row, `provider_event.dates`;
      - line 92 assigns `event_date.event_date`; intended is
        `event_date.sale_end_date`;
      - line 93 calls `date.save()` on the input dictionary; intended is
        `event_date.save()`;
      - line 110 reads `zones['rest']` from the query set; intended is the
        record's `zone['rest']`;
      - the Zone built at lines 102-108 never sets `capacity`, a column
        that has no default (line 219); intended is the record's
        `zone['capacity']`, read with the other creation fields. */
module Reconciler {
  import opened Optional
  import opened Calendar
  import opened Seqs
  import opened Schema

  datatype ZoneRecord = ZoneRecord(
    providerZoneId: Option<nat>,
    name: Option<string>,
    price: Option<int>,
    numbered: Option<bool>,
    capacity: Option<nat>,
    rest: Option<nat>)

  datatype DateRecord = DateRecord(
    providerDateId: Option<nat>,
    date: Option<DateTime>,
    saleStartDate: Option<DateTime>,
    saleEndDate: Option<DateTime>,
    zones: Option<seq<ZoneRecord>>)

  datatype EventRecord = EventRecord(
    providerEventId: Option<nat>,
    title: Option<string>,
    active: Option<bool>,
    dates: Option<seq<DateRecord>>)

  /** The store after a run, or the key whose absence raised `KeyError`
      together with the store as the failed run left it. */
  datatype Outcome = Done(store: Store) | Aborted(missingKey: string, store: Store)

  // ---------------------------------------------------------------------
  // Natural-key lookups

  predicate EventKeyed(e: Event, provider: nat, providerEventId: nat) {
    e.provider == Some(provider) && e.providerEventId == providerEventId
  }

  predicate DateKeyed(d: EventDate, eventId: nat, providerDateId: nat) {
    d.event == eventId && d.providerDateId == providerDateId
  }

  predicate ZoneKeyed(z: Zone, providerZoneId: nat) {
    z.providerZoneId == providerZoneId
  }

  /** `self.provider.events.filter(provider_event_id=...).first()`:
      events are kept in creation order, the order the query uses. */
  function FindEvent(s: Store, provider: nat, providerEventId: nat): (r: Option<nat>)
    ensures r.Some? ==> r.value < |s.events| && EventKeyed(s.events[r.value], provider, providerEventId)
    ensures r.Some? ==> forall j :: 0 <= j < r.value ==> !EventKeyed(s.events[j], provider, providerEventId)
    ensures r.None? <==> forall e :: e in s.events ==> !EventKeyed(e, provider, providerEventId)
  {
    FindFirst(s.events, (e: Event) => EventKeyed(e, provider, providerEventId))
  }

  /** The dates of the event with the given provider_date_id. */
  function FindDate(s: Store, eventId: nat, providerDateId: nat): (r: Option<nat>)
    ensures r.Some? ==> r.value < |s.dates| && DateKeyed(s.dates[r.value], eventId, providerDateId)
    ensures r.Some? ==> forall j :: 0 <= j < r.value ==> !DateKeyed(s.dates[j], eventId, providerDateId)
    ensures r.None? <==> forall d :: d in s.dates ==> !DateKeyed(d, eventId, providerDateId)
  {
    FindFirst(s.dates, (d: EventDate) => DateKeyed(d, eventId, providerDateId))
  }

  /** `Zone.objects.filter(provider_zone_id=...).first()`: the lookup
      spans the zones of every date, not just the date being saved. */
  function FindZone(s: Store, providerZoneId: nat): (r: Option<nat>)
    ensures r.Some? ==> r.value < |s.zones| && ZoneKeyed(s.zones[r.value], providerZoneId)
    ensures r.Some? ==> forall j :: 0 <= j < r.value ==> !ZoneKeyed(s.zones[j], providerZoneId)
    ensures r.None? <==> forall z :: z in s.zones ==> !ZoneKeyed(z, providerZoneId)
  {
    FindFirst(s.zones, (z: Zone) => ZoneKeyed(z, providerZoneId))
  }

  // ---------------------------------------------------------------------
  // Zones (lines 95-111)

  /** The keys the zone step reads are all present: the natural key and
      `rest` always, and the creation fields when no zone has that key. */
  predicate ZoneReadable(s: Store, z: ZoneRecord) {
    && z.providerZoneId.Some?
    && z.rest.Some?
    && (FindZone(s, z.providerZoneId.value).None? ==>
          z.name.Some? && z.price.Some? && z.numbered.Some? && z.capacity.Some?)
  }

  function ReconcileZone(s: Store, dateId: nat, z: ZoneRecord): (r: Outcome)
    ensures Extends(s, r.store)
    ensures r.store.events == s.events && r.store.dates == s.dates
    ensures r.Aborted? ==> r.store == s
    ensures r.Done? <==> ZoneReadable(s, z)
    // a zone found anywhere only has its `rest` overwritten
    ensures r.Done? && FindZone(s, z.providerZoneId.value).Some? ==>
      var i := FindZone(s, z.providerZoneId.value).value;
      && |r.store.zones| == |s.zones| && r.store.nextId == s.nextId
      && r.store.zones[i] == s.zones[i].(rest := z.rest.value)
      && forall j :: 0 <= j < |s.zones| && j != i ==> r.store.zones[j] == s.zones[j]
    // a zone not found is created under the date being saved
    ensures r.Done? && FindZone(s, z.providerZoneId.value).None? ==>
      && r.store.nextId == s.nextId + 1
      && r.store.zones == s.zones + [Zone(s.nextId, z.name.value, z.capacity.value, z.rest.value,
                                          z.price.value, z.numbered.value, dateId, z.providerZoneId.value)]
  {
    match z.providerZoneId
    case None => Aborted("provider_zone_id", s)
    case Some(zoneKey) =>
      match FindZone(s, zoneKey)
      case Some(i) =>
        if z.rest.None? then Aborted("rest", s)
        else Done(s.(zones := s.zones[i := s.zones[i].(rest := z.rest.value)]))
      case None =>
        if z.name.None? then Aborted("name", s)
        else if z.price.None? then Aborted("price", s)
        else if z.numbered.None? then Aborted("numbered", s)
        else if z.capacity.None? then Aborted("capacity", s)
        else if z.rest.None? then Aborted("rest", s)
        else
          var created := Zone(s.nextId, z.name.value, z.capacity.value, z.rest.value,
                              z.price.value, z.numbered.value, dateId, zoneKey);
          Done(s.(zones := s.zones + [created], nextId := s.nextId + 1))
  }

  function ReconcileZones(s: Store, dateId: nat, zs: seq<ZoneRecord>): (r: Outcome)
    ensures Extends(s, r.store)
    ensures r.store.events == s.events && r.store.dates == s.dates
    decreases |zs|
  {
    if |zs| == 0 then Done(s)
    else
      match ReconcileZone(s, dateId, zs[0])
      case Aborted(k, t) => Aborted(k, t)
      case Done(t) =>
        var r := ReconcileZones(t, dateId, zs[1..]);
        ExtendsTransitive(s, t, r.store);
        r
  }

  // ---------------------------------------------------------------------
  // Dates (lines 78-93)

  /** The date keys that are read before the row is saved. */
  predicate DateFieldsPresent(d: DateRecord) {
    d.providerDateId.Some? && d.date.Some? && d.saleStartDate.Some? && d.saleEndDate.Some?
  }

  /** Finds or creates the date and saves it with the record's timestamps;
      returns the new store and the id of the saved row. */
  function SaveDate(s: Store, eventId: nat, d: DateRecord): (r: (Store, nat))
    requires DateFieldsPresent(d)
    ensures Extends(s, r.0) && r.0.events == s.events && r.0.zones == s.zones
    ensures FindDate(r.0, eventId, d.providerDateId.value).Some?
    ensures
      var j := FindDate(r.0, eventId, d.providerDateId.value).value;
      && r.0.dates[j].id == r.1
      && r.0.dates[j].date == d.date.value
      && r.0.dates[j].saleStartDate == d.saleStartDate.value
      && r.0.dates[j].saleEndDate == d.saleEndDate.value
    // no other date row changes
    ensures forall k :: 0 <= k < |s.dates| && k != FindDate(r.0, eventId, d.providerDateId.value).value ==>
      r.0.dates[k] == s.dates[k]
    ensures FindDate(s, eventId, d.providerDateId.value).Some? ==>
      |r.0.dates| == |s.dates| && r.0.nextId == s.nextId
      && FindDate(r.0, eventId, d.providerDateId.value) == FindDate(s, eventId, d.providerDateId.value)
    ensures FindDate(s, eventId, d.providerDateId.value).None? ==>
      && r.0.dates == s.dates + [EventDate(s.nextId, d.date.value, d.saleStartDate.value, d.saleEndDate.value,
                                           true, eventId, d.providerDateId.value)]
      && r.0.nextId == s.nextId + 1 && r.1 == s.nextId
  {
    var dateKey := d.providerDateId.value;
    match FindDate(s, eventId, dateKey)
    case Some(i) =>
      var row := s.dates[i].(date := d.date.value, saleStartDate := d.saleStartDate.value,
                             saleEndDate := d.saleEndDate.value);
      var t := s.(dates := s.dates[i := row]);
      assert forall j :: 0 <= j < |t.dates| ==> (DateKeyed(t.dates[j], eventId, dateKey) <==> DateKeyed(s.dates[j], eventId, dateKey));
      (t, row.id)
    case None =>
      var row := EventDate(s.nextId, d.date.value, d.saleStartDate.value, d.saleEndDate.value,
                           true, eventId, dateKey);
      var t := s.(dates := s.dates + [row], nextId := s.nextId + 1);
      assert DateKeyed(t.dates[|s.dates|], eventId, dateKey);
      (t, row.id)
  }

  function ReconcileDate(s: Store, eventId: nat, d: DateRecord): (r: Outcome)
    ensures Extends(s, r.store) && r.store.events == s.events
    ensures !DateFieldsPresent(d) ==> r.Aborted? && r.store == s
    ensures DateFieldsPresent(d) && d.zones.None? ==> r.Aborted? && r.store == SaveDate(s, eventId, d).0
    // found or new, the date row carries the record's timestamps
    ensures r.Done? ==>
      && DateFieldsPresent(d)
      && FindDate(r.store, eventId, d.providerDateId.value).Some?
      && var j := FindDate(r.store, eventId, d.providerDateId.value).value;
      && r.store.dates[j].date == d.date.value
      && r.store.dates[j].saleStartDate == d.saleStartDate.value
      && r.store.dates[j].saleEndDate == d.saleEndDate.value
  {
    if d.providerDateId.None? then Aborted("provider_date_id", s)
    else if d.date.None? then Aborted("date", s)
    else if d.saleStartDate.None? then Aborted("sale_start_date", s)
    else if d.saleEndDate.None? then Aborted("sale_end_date", s)
    else
      var (t, dateId) := SaveDate(s, eventId, d);
      match d.zones
      case None => Aborted("zones", t)
      case Some(zs) =>
        var r := ReconcileZones(t, dateId, zs);
        ExtendsTransitive(s, t, r.store);
        assert FindDate(r.store, eventId, d.providerDateId.value) == FindDate(t, eventId, d.providerDateId.value);
        r
  }

  function ReconcileDates(s: Store, eventId: nat, ds: seq<DateRecord>): (r: Outcome)
    ensures Extends(s, r.store) && r.store.events == s.events
    decreases |ds|
  {
    if |ds| == 0 then Done(s)
    else
      match ReconcileDate(s, eventId, ds[0])
      case Aborted(k, t) => Aborted(k, t)
      case Done(t) =>
        var r := ReconcileDates(t, eventId, ds[1..]);
        ExtendsTransitive(s, t, r.store);
        r
  }

  // ---------------------------------------------------------------------
  // Events (lines 63-78)

  /** The `dates` list of an event record, read once the event row exists. */
  function ReconcileEventDates(s: Store, eventId: nat, dates: Option<seq<DateRecord>>): (r: Outcome)
    ensures Extends(s, r.store) && r.store.events == s.events
    ensures dates.None? ==> r == Aborted("dates", s)
  {
    match dates
    case None => Aborted("dates", s)
    case Some(ds) => ReconcileDates(s, eventId, ds)
  }

  function ReconcileEvent(s: Store, provider: nat, e: EventRecord): (r: Outcome)
    ensures Extends(s, r.store)
    ensures e.providerEventId.None? ==> r == Aborted("provider_event_id", s)
    // a found event is reused as it is: no new row, title and active untouched
    ensures e.providerEventId.Some? && FindEvent(s, provider, e.providerEventId.value).Some? ==>
      r.store.events == s.events
    // otherwise a new event owned by this provider takes the record's fields
    ensures e.providerEventId.Some? && FindEvent(s, provider, e.providerEventId.value).None? ==>
      if e.title.None? then r == Aborted("title", s)
      else if e.active.None? then r == Aborted("active", s)
      else r.store.events == s.events + [Event(s.nextId, s.nextId, e.title.value, e.active.value,
                                               Some(provider), e.providerEventId.value)]
  {
    match e.providerEventId
    case None => Aborted("provider_event_id", s)
    case Some(eventKey) =>
      match FindEvent(s, provider, eventKey)
      case Some(i) => ReconcileEventDates(s, s.events[i].id, e.dates)
      case None =>
        if e.title.None? then Aborted("title", s)
        else if e.active.None? then Aborted("active", s)
        else
          var created := Event(s.nextId, s.nextId, e.title.value, e.active.value, Some(provider), eventKey);
          var t := s.(events := s.events + [created], nextId := s.nextId + 1);
          var r := ReconcileEventDates(t, created.id, e.dates);
          ExtendsTransitive(s, t, r.store);
          r
  }

  /** The store right after a new event row is appended: its dates are
      then processed under the new event's id. */
  function WithNewEvent(s: Store, provider: nat, e: EventRecord): (t: Store)
    requires e.providerEventId.Some? && e.title.Some? && e.active.Some?
    requires FindEvent(s, provider, e.providerEventId.value).None?
    ensures t.events == s.events + [Event(s.nextId, s.nextId, e.title.value, e.active.value, Some(provider), e.providerEventId.value)]
    ensures FindEvent(t, provider, e.providerEventId.value) == Some(|s.events|)
    ensures ReconcileEvent(s, provider, e) == ReconcileEventDates(t, s.nextId, e.dates)
  {
    var key := e.providerEventId.value;
    var created := Event(s.nextId, s.nextId, e.title.value, e.active.value, Some(provider), key);
    var t := s.(events := s.events + [created], nextId := s.nextId + 1);
    assert EventKeyed(t.events[|s.events|], provider, key);
    t
  }

  /** `save_resource` for the provider `provider` over its parsed records. */
  function SaveResource(s: Store, provider: nat, records: seq<EventRecord>): (r: Outcome)
    ensures Extends(s, r.store)
    ensures forall i :: |s.events| <= i < |r.store.events| ==> r.store.events[i].provider == Some(provider)
    decreases |records|
  {
    if |records| == 0 then Done(s)
    else
      match ReconcileEvent(s, provider, records[0])
      case Aborted(k, t) => Aborted(k, t)
      case Done(t) =>
        var r := SaveResource(t, provider, records[1..]);
        ExtendsTransitive(s, t, r.store);
        r
  }
}

=== FILE: reconciler_idempotence.dfy ===
/** Idempotence of `save_resource`: running it a second time over the
    same records leaves the store exactly as the first run left it.

    A run is read as the list of field writes it makes: the `rest` of a
    zone and the three timestamps of a date, each at a row position. The
    positions are those the natural keys find in a reference store that
    extends every intermediate store, so they are the same in both runs.
    A completed run leaves every written position holding the last value
    written to it and leaves every other position as it was. Since the
    second run makes the same writes as the first, every position it
    writes already holds that value. */
module ReconcilerIdempotence {
  import opened Optional
  import opened Calendar
  import opened Schema
  import opened Reconciler
  import opened ReconcilerRuns

  /** The three timestamps `save_resource` writes into a date row. */
  datatype Times = Times(date: DateTime, saleStart: DateTime, saleEnd: DateTime)

  function TimesOf(d: EventDate): Times {
    Times(d.date, d.saleStartDate, d.saleEndDate)
  }

  datatype Write =
    | RestWrite(zone: nat, rest: nat)
    | TimesWrite(date: nat, times: Times)

  /** The last `rest` written to zone position `i`, if any. */
  function LastRest(w: seq<Write>, i: nat): Option<nat> {
    if |w| == 0 then None
    else
      var later := LastRest(w[1..], i);
      if later.Some? then later
      else if w[0].RestWrite? && w[0].zone == i then Some(w[0].rest)
      else None
  }

  /** The last timestamps written to date position `i`, if any. */
  function LastTimes(w: seq<Write>, i: nat): Option<Times> {
    if |w| == 0 then None
    else
      var later := LastTimes(w[1..], i);
      if later.Some? then later
      else if w[0].TimesWrite? && w[0].date == i then Some(w[0].times)
      else None
  }

  /** In `a + b` the writes of `b` come last. */
  lemma {:induction false} LastAppend(a: seq<Write>, b: seq<Write>, i: nat)
    ensures LastRest(a + b, i) == if LastRest(b, i).Some? then LastRest(b, i) else LastRest(a, i)
    ensures LastTimes(a + b, i) == if LastTimes(b, i).Some? then LastTimes(b, i) else LastTimes(a, i)
    decreases |a|
  {
    if |a| == 0 {
      assert a + b == b;
    } else {
      assert (a + b)[0] == a[0];
      assert (a + b)[1..] == a[1..] + b;
      LastAppend(a[1..], b, i);
    }
  }

  /** Going from `u` to `v` made the writes `w`: each written position of
      `v` holds its last write, and every other position of `u` is
      unchanged in `v`. */
  ghost predicate Lands(u: Store, v: Store, w: seq<Write>) {
    && |u.zones| <= |v.zones|
    && |u.dates| <= |v.dates|
    && (forall i: nat :: LastRest(w, i).Some? ==> i < |v.zones| && v.zones[i].rest == LastRest(w, i).value)
    && (forall i :: 0 <= i < |u.zones| && LastRest(w, i).None? ==> v.zones[i].rest == u.zones[i].rest)
    && (forall i: nat :: LastTimes(w, i).Some? ==> i < |v.dates| && TimesOf(v.dates[i]) == LastTimes(w, i).value)
    && (forall i :: 0 <= i < |u.dates| && LastTimes(w, i).None? ==> TimesOf(v.dates[i]) == TimesOf(u.dates[i]))
  }

  lemma LandsCompose(u: Store, m: Store, v: Store, a: seq<Write>, b: seq<Write>)
    requires Lands(u, m, a) && Lands(m, v, b)
    ensures Lands(u, v, a + b)
  {
    forall i: nat ensures LastRest(a + b, i) == (if LastRest(b, i).Some? then LastRest(b, i) else LastRest(a, i))
                  && LastTimes(a + b, i) == (if LastTimes(b, i).Some? then LastTimes(b, i) else LastTimes(a, i)) {
      LastAppend(a, b, i);
    }
  }

  // ---------------------------------------------------------------------
  // The writes of a run, at the positions a reference store gives

  function ZoneWrite(ref: Store, z: ZoneRecord): seq<Write> {
    if z.providerZoneId.Some? && z.rest.Some? && FindZone(ref, z.providerZoneId.value).Some? then
      [RestWrite(FindZone(ref, z.providerZoneId.value).value, z.rest.value)]
    else []
  }

  function ZoneWrites(ref: Store, zs: seq<ZoneRecord>): seq<Write>
    decreases |zs|
  {
    if |zs| == 0 then [] else ZoneWrite(ref, zs[0]) + ZoneWrites(ref, zs[1..])
  }

  function SaveDateWrite(ref: Store, eventId: nat, d: DateRecord): seq<Write> {
    if DateFieldsPresent(d) && FindDate(ref, eventId, d.providerDateId.value).Some? then
      [TimesWrite(FindDate(ref, eventId, d.providerDateId.value).value,
                  Times(d.date.value, d.saleStartDate.value, d.saleEndDate.value))]
    else []
  }

  function DateWrite(ref: Store, eventId: nat, d: DateRecord): seq<Write> {
    SaveDateWrite(ref, eventId, d) + (if d.zones.Some? then ZoneWrites(ref, d.zones.value) else [])
  }

  function DateWrites(ref: Store, eventId: nat, ds: seq<DateRecord>): seq<Write>
    decreases |ds|
  {
    if |ds| == 0 then [] else DateWrite(ref, eventId, ds[0]) + DateWrites(ref, eventId, ds[1..])
  }

  function EventWrite(ref: Store, provider: nat, e: EventRecord): seq<Write> {
    if e.providerEventId.Some? && e.dates.Some? && FindEvent(ref, provider, e.providerEventId.value).Some? then
      DateWrites(ref, ref.events[FindEvent(ref, provider, e.providerEventId.value).value].id, e.dates.value)
    else []
  }

  function EventWrites(ref: Store, provider: nat, records: seq<EventRecord>): seq<Write>
    decreases |records|
  {
    if |records| == 0 then [] else EventWrite(ref, provider, records[0]) + EventWrites(ref, provider, records[1..])
  }

  // ---------------------------------------------------------------------
  // A completed run lands its writes

  lemma ZoneLands(u: Store, dateId: nat, z: ZoneRecord, ref: Store)
    requires ReconcileZone(u, dateId, z).Done? && Extends(ReconcileZone(u, dateId, z).store, ref)
    ensures Lands(u, ReconcileZone(u, dateId, z).store, ZoneWrite(ref, z))
  {
    var v := ReconcileZone(u, dateId, z).store;
    var key := z.providerZoneId.value;
    ZoneRunSettles(u, dateId, z);
    FindZoneStable(v, ref, key);
    var j := FindZone(v, key).value;
    if FindZone(u, key).Some? {
      FindZoneStable(u, v, key);
    } else {
      assert j == |u.zones|;
    }
    assert ZoneWrite(ref, z) == [RestWrite(j, z.rest.value)];
    assert forall i: nat :: LastRest([RestWrite(j, z.rest.value)], i) == if i == j then Some(z.rest.value) else None;
    assert forall i: nat :: LastTimes([RestWrite(j, z.rest.value)], i) == None;
  }

  lemma {:induction false} ZonesLand(u: Store, dateId: nat, zs: seq<ZoneRecord>, ref: Store)
    requires ReconcileZones(u, dateId, zs).Done? && Extends(ReconcileZones(u, dateId, zs).store, ref)
    ensures Lands(u, ReconcileZones(u, dateId, zs).store, ZoneWrites(ref, zs))
    decreases |zs|
  {
    if |zs| > 0 {
      var m := ReconcileZone(u, dateId, zs[0]).store;
      var v := ReconcileZones(m, dateId, zs[1..]).store;
      assert ReconcileZones(u, dateId, zs) == ReconcileZones(m, dateId, zs[1..]);
      ExtendsTransitive(m, v, ref);
      ZoneLands(u, dateId, zs[0], ref);
      ZonesLand(m, dateId, zs[1..], ref);
      LandsCompose(u, m, v, ZoneWrite(ref, zs[0]), ZoneWrites(ref, zs[1..]));
    }
  }

  lemma SaveDateLands(u: Store, eventId: nat, d: DateRecord, ref: Store)
    requires DateFieldsPresent(d) && Extends(SaveDate(u, eventId, d).0, ref)
    ensures Lands(u, SaveDate(u, eventId, d).0, SaveDateWrite(ref, eventId, d))
  {
    var v := SaveDate(u, eventId, d).0;
    var key := d.providerDateId.value;
    FindDateStable(v, ref, eventId, key);
    var j := FindDate(v, eventId, key).value;
    var times := Times(d.date.value, d.saleStartDate.value, d.saleEndDate.value);
    assert SaveDateWrite(ref, eventId, d) == [TimesWrite(j, times)];
    assert forall i: nat :: LastTimes([TimesWrite(j, times)], i) == if i == j then Some(times) else None;
    assert forall i: nat :: LastRest([TimesWrite(j, times)], i) == None;
  }

  lemma DateLands(u: Store, eventId: nat, d: DateRecord, ref: Store)
    requires ReconcileDate(u, eventId, d).Done? && Extends(ReconcileDate(u, eventId, d).store, ref)
    ensures Lands(u, ReconcileDate(u, eventId, d).store, DateWrite(ref, eventId, d))
  {
    var (m, dateId) := SaveDate(u, eventId, d);
    var zs := d.zones.value;
    var v := ReconcileZones(m, dateId, zs).store;
    assert ReconcileDate(u, eventId, d) == ReconcileZones(m, dateId, zs);
    ExtendsTransitive(m, v, ref);
    SaveDateLands(u, eventId, d, ref);
    ZonesLand(m, dateId, zs, ref);
    LandsCompose(u, m, v, SaveDateWrite(ref, eventId, d), ZoneWrites(ref, zs));
  }

  lemma {:induction false} DatesLand(u: Store, eventId: nat, ds: seq<DateRecord>, ref: Store)
    requires ReconcileDates(u, eventId, ds).Done? && Extends(ReconcileDates(u, eventId, ds).store, ref)
    ensures Lands(u, ReconcileDates(u, eventId, ds).store, DateWrites(ref, eventId, ds))
    decreases |ds|
  {
    if |ds| > 0 {
      var m := ReconcileDate(u, eventId, ds[0]).store;
      var v := ReconcileDates(m, eventId, ds[1..]).store;
      assert ReconcileDates(u, eventId, ds) == ReconcileDates(m, eventId, ds[1..]);
      ExtendsTransitive(m, v, ref);
      DateLands(u, eventId, ds[0], ref);
      DatesLand(m, eventId, ds[1..], ref);
      LandsCompose(u, m, v, DateWrite(ref, eventId, ds[0]), DateWrites(ref, eventId, ds[1..]));
    }
  }

  lemma FoundEventLands(u: Store, provider: nat, e: EventRecord, ref: Store)
    requires ReconcileEvent(u, provider, e).Done? && Extends(ReconcileEvent(u, provider, e).store, ref)
    requires e.providerEventId.Some? && FindEvent(u, provider, e.providerEventId.value).Some?
    ensures Lands(u, ReconcileEvent(u, provider, e).store, EventWrite(ref, provider, e))
  {
    var key := e.providerEventId.value;
    var i := FindEvent(u, provider, key).value;
    var r := ReconcileEventDates(u, u.events[i].id, e.dates);
    assert ReconcileEvent(u, provider, e) == r;
    var v := r.store;
    FindEventStable(u, v, provider, key);
    FindEventStable(v, ref, provider, key);
    assert ref.events[i] == u.events[i];
    DatesLand(u, u.events[i].id, e.dates.value, ref);
  }

  lemma CreatedEventLands(u: Store, provider: nat, e: EventRecord, ref: Store)
    requires ReconcileEvent(u, provider, e).Done? && Extends(ReconcileEvent(u, provider, e).store, ref)
    requires e.providerEventId.Some? && FindEvent(u, provider, e.providerEventId.value).None?
    ensures Lands(u, ReconcileEvent(u, provider, e).store, EventWrite(ref, provider, e))
  {
    var key := e.providerEventId.value;
    var m := WithNewEvent(u, provider, e);
    var r := ReconcileDates(m, u.nextId, e.dates.value);
    var v := r.store;
    FindEventStable(m, v, provider, key);
    FindEventStable(v, ref, provider, key);
    assert ref.events[|u.events|] == m.events[|u.events|];
    DatesLand(m, u.nextId, e.dates.value, ref);
    assert m.zones == u.zones && m.dates == u.dates;
  }

  lemma EventLands(u: Store, provider: nat, e: EventRecord, ref: Store)
    requires ReconcileEvent(u, provider, e).Done? && Extends(ReconcileEvent(u, provider, e).store, ref)
    ensures Lands(u, ReconcileEvent(u, provider, e).store, EventWrite(ref, provider, e))
  {
    if FindEvent(u, provider, e.providerEventId.value).Some? {
      FoundEventLands(u, provider, e, ref);
    } else {
      CreatedEventLands(u, provider, e, ref);
    }
  }

  lemma {:induction false} RunLands(u: Store, provider: nat, records: seq<EventRecord>, ref: Store)
    requires SaveResource(u, provider, records).Done? && Extends(SaveResource(u, provider, records).store, ref)
    ensures Lands(u, SaveResource(u, provider, records).store, EventWrites(ref, provider, records))
    decreases |records|
  {
    if |records| > 0 {
      var m := ReconcileEvent(u, provider, records[0]).store;
      var v := SaveResource(m, provider, records[1..]).store;
      assert SaveResource(u, provider, records) == SaveResource(m, provider, records[1..]);
      ExtendsTransitive(m, v, ref);
      EventLands(u, provider, records[0], ref);
      RunLands(m, provider, records[1..], ref);
      LandsCompose(u, m, v, EventWrite(ref, provider, records[0]), EventWrites(ref, provider, records[1..]));
    }
  }

  // ---------------------------------------------------------------------
  // Idempotence

  /** A store that grew without adding rows can be read as growing back. */
  lemma ExtendsBack(s: Store, t: Store)
    requires Extends(s, t) && SameCounts(s, t)
    ensures Extends(t, s)
  {
    assert s.events == t.events;
  }

  /** If `t` already holds the last value of every write in `w`, and a
      step from `t` that adds no row made exactly the writes `w`, then that
      step changed nothing. */
  lemma WritesAlreadyLanded(s: Store, t: Store, t2: Store, w: seq<Write>)
    requires Lands(s, t, w) && Lands(t, t2, w)
    requires Extends(t, t2) && SameCounts(t, t2)
    ensures t2 == t
  {
    forall i | 0 <= i < |t.zones| ensures t2.zones[i] == t.zones[i] {
      assert SameZoneRow(t.zones[i], t2.zones[i]);
      assert LastRest(w, i).Some? ==> t.zones[i].rest == LastRest(w, i).value;
    }
    forall i | 0 <= i < |t.dates| ensures t2.dates[i] == t.dates[i] {
      assert SameDateRow(t.dates[i], t2.dates[i]);
      assert LastTimes(w, i).Some? ==> TimesOf(t.dates[i]) == LastTimes(w, i).value;
    }
    assert t2.events == t.events && t2.dates == t.dates && t2.zones == t.zones;
  }

  /** After a completed run, a second run over the same records completes
      and changes nothing at all: no row is added and no field of any row
      takes a new value. */
  lemma SaveResourceIdempotent(s: Store, provider: nat, records: seq<EventRecord>)
    requires SaveResource(s, provider, records).Done?
    ensures
      var t := SaveResource(s, provider, records).store;
      SaveResource(t, provider, records) == Done(t)
  {
    var t := SaveResource(s, provider, records).store;
    SaveResourceSettles(s, provider, records);
    SaveResourceSettledRun(t, provider, records);
    var t2 := SaveResource(t, provider, records).store;
    ExtendsBack(t, t2);
    RunLands(s, provider, records, t);
    RunLands(t, provider, records, t);
    WritesAlreadyLanded(s, t, t2, EventWrites(t, provider, records));
  }
}

=== FILE: reconciler_runs.dfy ===
/** Properties of whole `save_resource` runs: how runs over consecutive
    slices of the records compose, what a failing record leaves behind,
    and that a run over records whose rows all exist creates no rows. */
module ReconcilerRuns {
  import opened Schema
  import opened Reconciler

  // ---------------------------------------------------------------------
  // Composition and partial failure

  /** Processing `a + b` is processing `a`, then `b` on what it left; a
      failure inside `a` ends the run there. */
  lemma {:induction false} SaveResourceAppend(s: Store, provider: nat, a: seq<EventRecord>, b: seq<EventRecord>)
    ensures SaveResource(s, provider, a + b) ==
      match SaveResource(s, provider, a)
      case Aborted(k, t) => Aborted(k, t)
      case Done(t) => SaveResource(t, provider, b)
    decreases |a|
  {
    if |a| == 0 {
      assert a + b == b;
    } else {
      assert (a + b)[0] == a[0];
      assert (a + b)[1..] == a[1..] + b;
      match ReconcileEvent(s, provider, a[0])
      case Aborted(_, _) =>
      case Done(t) =>
        SaveResourceAppend(t, provider, a[1..], b);
    }
  }

  /** A record without `provider_event_id` stops the run with a key error;
      every row written for the records before it stays in the store. */
  lemma EarlierRowsSurviveKeyError(s: Store, provider: nat, a: seq<EventRecord>, bad: EventRecord, b: seq<EventRecord>)
    requires SaveResource(s, provider, a).Done?
    requires bad.providerEventId.None?
    ensures SaveResource(s, provider, a + [bad] + b) == Aborted("provider_event_id", SaveResource(s, provider, a).store)
  {
    var t := SaveResource(s, provider, a).store;
    assert a + [bad] + b == a + ([bad] + b);
    SaveResourceAppend(s, provider, a, [bad] + b);
    assert ([bad] + b)[0] == bad;
  }

  // ---------------------------------------------------------------------
  // Lookups are stable as the store grows

  lemma FindEventStable(s: Store, t: Store, provider: nat, key: nat)
    requires Extends(s, t) && FindEvent(s, provider, key).Some?
    ensures FindEvent(t, provider, key) == FindEvent(s, provider, key)
  {
    var i := FindEvent(s, provider, key).value;
    assert t.events[i] == s.events[i];
    assert EventKeyed(t.events[i], provider, key);
    assert forall j :: 0 <= j < i ==> t.events[j] == s.events[j];
  }

  lemma FindDateStable(s: Store, t: Store, eventId: nat, key: nat)
    requires Extends(s, t) && FindDate(s, eventId, key).Some?
    ensures FindDate(t, eventId, key) == FindDate(s, eventId, key)
  {
    var i := FindDate(s, eventId, key).value;
    assert SameDateRow(s.dates[i], t.dates[i]);
    assert DateKeyed(t.dates[i], eventId, key);
    assert forall j :: 0 <= j < i ==> SameDateRow(s.dates[j], t.dates[j]);
  }

  lemma FindZoneStable(s: Store, t: Store, key: nat)
    requires Extends(s, t) && FindZone(s, key).Some?
    ensures FindZone(t, key) == FindZone(s, key)
  {
    var i := FindZone(s, key).value;
    assert SameZoneRow(s.zones[i], t.zones[i]);
    assert ZoneKeyed(t.zones[i], key);
    assert forall j :: 0 <= j < i ==> SameZoneRow(s.zones[j], t.zones[j]);
  }

  // ---------------------------------------------------------------------
  // Settled records: every row the record names already exists

  ghost predicate ZoneSettled(s: Store, z: ZoneRecord) {
    z.providerZoneId.Some? && z.rest.Some? && FindZone(s, z.providerZoneId.value).Some?
  }

  ghost predicate DateSettled(s: Store, eventId: nat, d: DateRecord) {
    && DateFieldsPresent(d)
    && d.zones.Some?
    && FindDate(s, eventId, d.providerDateId.value).Some?
    && forall k :: 0 <= k < |d.zones.value| ==> ZoneSettled(s, d.zones.value[k])
  }

  ghost predicate EventSettled(s: Store, provider: nat, e: EventRecord) {
    && e.providerEventId.Some?
    && FindEvent(s, provider, e.providerEventId.value).Some?
    && e.dates.Some?
    && var eventId := s.events[FindEvent(s, provider, e.providerEventId.value).value].id;
       forall k :: 0 <= k < |e.dates.value| ==> DateSettled(s, eventId, e.dates.value[k])
  }

  /** No row was added and no id handed out. */
  ghost predicate SameCounts(s: Store, t: Store) {
    |t.events| == |s.events| && |t.dates| == |s.dates| && |t.zones| == |s.zones| && t.nextId == s.nextId
  }

  lemma ZoneSettledStable(s: Store, t: Store, z: ZoneRecord)
    requires Extends(s, t) && ZoneSettled(s, z)
    ensures ZoneSettled(t, z)
  {
    FindZoneStable(s, t, z.providerZoneId.value);
  }

  lemma DateSettledStable(s: Store, t: Store, eventId: nat, d: DateRecord)
    requires Extends(s, t) && DateSettled(s, eventId, d)
    ensures DateSettled(t, eventId, d)
  {
    FindDateStable(s, t, eventId, d.providerDateId.value);
    forall k | 0 <= k < |d.zones.value| ensures ZoneSettled(t, d.zones.value[k]) {
      ZoneSettledStable(s, t, d.zones.value[k]);
    }
  }

  lemma EventSettledStable(s: Store, t: Store, provider: nat, e: EventRecord)
    requires Extends(s, t) && EventSettled(s, provider, e)
    ensures EventSettled(t, provider, e)
  {
    var key := e.providerEventId.value;
    FindEventStable(s, t, provider, key);
    var i := FindEvent(s, provider, key).value;
    assert t.events[i] == s.events[i];
    forall k | 0 <= k < |e.dates.value| ensures DateSettled(t, s.events[i].id, e.dates.value[k]) {
      DateSettledStable(s, t, s.events[i].id, e.dates.value[k]);
    }
  }

  // ---------------------------------------------------------------------
  // A completed run settles every record it read

  lemma ZoneRunSettles(s: Store, dateId: nat, z: ZoneRecord)
    requires ReconcileZone(s, dateId, z).Done?
    ensures ZoneSettled(ReconcileZone(s, dateId, z).store, z)
  {
    var t := ReconcileZone(s, dateId, z).store;
    var key := z.providerZoneId.value;
    var i := if FindZone(s, key).Some? then FindZone(s, key).value else |s.zones|;
    assert ZoneKeyed(t.zones[i], key);
  }

  lemma {:induction false} ZonesRunSettles(s: Store, dateId: nat, zs: seq<ZoneRecord>)
    requires ReconcileZones(s, dateId, zs).Done?
    ensures forall k :: 0 <= k < |zs| ==> ZoneSettled(ReconcileZones(s, dateId, zs).store, zs[k])
    decreases |zs|
  {
    if |zs| > 0 {
      var t := ReconcileZone(s, dateId, zs[0]).store;
      var u := ReconcileZones(s, dateId, zs).store;
      assert u == ReconcileZones(t, dateId, zs[1..]).store;
      ZoneRunSettles(s, dateId, zs[0]);
      ZoneSettledStable(t, u, zs[0]);
      ZonesRunSettles(t, dateId, zs[1..]);
      forall k | 1 <= k < |zs| ensures ZoneSettled(u, zs[k]) {
        assert zs[k] == zs[1..][k - 1];
      }
    }
  }

  lemma DateRunSettles(s: Store, eventId: nat, d: DateRecord)
    requires ReconcileDate(s, eventId, d).Done?
    ensures DateSettled(ReconcileDate(s, eventId, d).store, eventId, d)
  {
    var (t, dateId) := SaveDate(s, eventId, d);
    ZonesRunSettles(t, dateId, d.zones.value);
  }

  lemma {:induction false} DatesRunSettles(s: Store, eventId: nat, ds: seq<DateRecord>)
    requires ReconcileDates(s, eventId, ds).Done?
    ensures forall k :: 0 <= k < |ds| ==> DateSettled(ReconcileDates(s, eventId, ds).store, eventId, ds[k])
    decreases |ds|
  {
    if |ds| > 0 {
      var t := ReconcileDate(s, eventId, ds[0]).store;
      var u := ReconcileDates(s, eventId, ds).store;
      assert u == ReconcileDates(t, eventId, ds[1..]).store;
      DateRunSettles(s, eventId, ds[0]);
      DateSettledStable(t, u, eventId, ds[0]);
      DatesRunSettles(t, eventId, ds[1..]);
      forall k | 1 <= k < |ds| ensures DateSettled(u, eventId, ds[k]) {
        assert ds[k] == ds[1..][k - 1];
      }
    }
  }

  lemma FoundEventRunSettles(s: Store, provider: nat, e: EventRecord)
    requires ReconcileEvent(s, provider, e).Done?
    requires e.providerEventId.Some? && FindEvent(s, provider, e.providerEventId.value).Some?
    ensures EventSettled(ReconcileEvent(s, provider, e).store, provider, e)
  {
    var key := e.providerEventId.value;
    var i := FindEvent(s, provider, key).value;
    var r := ReconcileEventDates(s, s.events[i].id, e.dates);
    assert ReconcileEvent(s, provider, e) == r;
    assert r.store.events == s.events;
    assert FindEvent(r.store, provider, key) == FindEvent(s, provider, key);
    DatesRunSettles(s, s.events[i].id, e.dates.value);
  }

  lemma CreatedEventRunSettles(s: Store, provider: nat, e: EventRecord)
    requires ReconcileEvent(s, provider, e).Done?
    requires e.providerEventId.Some? && FindEvent(s, provider, e.providerEventId.value).None?
    ensures EventSettled(ReconcileEvent(s, provider, e).store, provider, e)
  {
    var key := e.providerEventId.value;
    var t := WithNewEvent(s, provider, e);
    var r := ReconcileDates(t, s.nextId, e.dates.value);
    assert r.store.events == t.events;
    assert t.events[|s.events|].id == s.nextId;
    DatesRunSettles(t, s.nextId, e.dates.value);
  }

  lemma EventRunSettles(s: Store, provider: nat, e: EventRecord)
    requires ReconcileEvent(s, provider, e).Done?
    ensures EventSettled(ReconcileEvent(s, provider, e).store, provider, e)
  {
    if FindEvent(s, provider, e.providerEventId.value).Some? {
      FoundEventRunSettles(s, provider, e);
    } else {
      CreatedEventRunSettles(s, provider, e);
    }
  }

  lemma {:induction false} SaveResourceSettles(s: Store, provider: nat, records: seq<EventRecord>)
    requires SaveResource(s, provider, records).Done?
    ensures forall k :: 0 <= k < |records| ==> EventSettled(SaveResource(s, provider, records).store, provider, records[k])
    decreases |records|
  {
    if |records| > 0 {
      var first := ReconcileEvent(s, provider, records[0]);
      assert first.Done?;
      var t := first.store;
      var rest := SaveResource(t, provider, records[1..]);
      assert SaveResource(s, provider, records) == rest;
      var u := rest.store;
      EventRunSettles(s, provider, records[0]);
      EventSettledStable(t, u, provider, records[0]);
      SaveResourceSettles(t, provider, records[1..]);
      forall k | 1 <= k < |records| ensures EventSettled(u, provider, records[k]) {
        assert records[k] == records[1..][k - 1];
      }
    }
  }

  // ---------------------------------------------------------------------
  // A run over settled records succeeds and adds nothing

  lemma ZoneSettledRun(s: Store, dateId: nat, z: ZoneRecord)
    requires ZoneSettled(s, z)
    ensures ReconcileZone(s, dateId, z).Done?
    ensures SameCounts(s, ReconcileZone(s, dateId, z).store)
  {
  }

  lemma {:induction false} ZonesSettledRun(s: Store, dateId: nat, zs: seq<ZoneRecord>)
    requires forall k :: 0 <= k < |zs| ==> ZoneSettled(s, zs[k])
    ensures ReconcileZones(s, dateId, zs).Done?
    ensures SameCounts(s, ReconcileZones(s, dateId, zs).store)
    decreases |zs|
  {
    if |zs| > 0 {
      ZoneSettledRun(s, dateId, zs[0]);
      var t := ReconcileZone(s, dateId, zs[0]).store;
      forall k | 0 <= k < |zs[1..]| ensures ZoneSettled(t, zs[1..][k]) {
        ZoneSettledStable(s, t, zs[1..][k]);
      }
      ZonesSettledRun(t, dateId, zs[1..]);
    }
  }

  lemma DateSettledRun(s: Store, eventId: nat, d: DateRecord)
    requires DateSettled(s, eventId, d)
    ensures ReconcileDate(s, eventId, d).Done?
    ensures SameCounts(s, ReconcileDate(s, eventId, d).store)
  {
    var (t, dateId) := SaveDate(s, eventId, d);
    var zs := d.zones.value;
    forall k | 0 <= k < |zs| ensures ZoneSettled(t, zs[k]) {
      ZoneSettledStable(s, t, zs[k]);
    }
    ZonesSettledRun(t, dateId, zs);
  }

  lemma {:induction false} DatesSettledRun(s: Store, eventId: nat, ds: seq<DateRecord>)
    requires forall k :: 0 <= k < |ds| ==> DateSettled(s, eventId, ds[k])
    ensures ReconcileDates(s, eventId, ds).Done?
    ensures SameCounts(s, ReconcileDates(s, eventId, ds).store)
    decreases |ds|
  {
    if |ds| > 0 {
      DateSettledRun(s, eventId, ds[0]);
      var t := ReconcileDate(s, eventId, ds[0]).store;
      forall k | 0 <= k < |ds[1..]| ensures DateSettled(t, eventId, ds[1..][k]) {
        DateSettledStable(s, t, eventId, ds[1..][k]);
      }
      DatesSettledRun(t, eventId, ds[1..]);
    }
  }

  lemma EventSettledRun(s: Store, provider: nat, e: EventRecord)
    requires EventSettled(s, provider, e)
    ensures ReconcileEvent(s, provider, e).Done?
    ensures SameCounts(s, ReconcileEvent(s, provider, e).store)
  {
    var i := FindEvent(s, provider, e.providerEventId.value).value;
    DatesSettledRun(s, s.events[i].id, e.dates.value);
  }

  lemma {:induction false} SaveResourceSettledRun(s: Store, provider: nat, records: seq<EventRecord>)
    requires forall k :: 0 <= k < |records| ==> EventSettled(s, provider, records[k])
    ensures SaveResource(s, provider, records).Done?
    ensures SameCounts(s, SaveResource(s, provider, records).store)
    decreases |records|
  {
    if |records| > 0 {
      EventSettledRun(s, provider, records[0]);
      var t := ReconcileEvent(s, provider, records[0]).store;
      forall k | 0 <= k < |records[1..]| ensures EventSettled(t, provider, records[1..][k]) {
        EventSettledStable(s, t, provider, records[1..][k]);
      }
      SaveResourceSettledRun(t, provider, records[1..]);
    }
  }
}

=== FILE: reconciler_validity.dfy ===
/** `save_resource` keeps a well-formed store well-formed: natural keys
    stay unique (at most one event per provider and provider_event_id, one
    date per event and provider_date_id, one zone per provider_zone_id),
    ids stay fresh, and no reference dangles. This holds for the store a
    failed run leaves behind as well, since that store is simply the one
    the run had reached. */
module ReconcilerValidity {
  import opened Optional
  import opened Seqs
  import opened Schema
  import opened Reconciler

  lemma ZoneKeepsValid(s: Store, dateId: nat, z: ZoneRecord)
    requires Valid(s) && dateId in DateIds(s)
    ensures Valid(ReconcileZone(s, dateId, z).store)
  {
    var t := ReconcileZone(s, dateId, z).store;
    if t != s {
      var key := z.providerZoneId.value;
      match FindZone(s, key)
      case Some(i) =>
        var y := t.zones[i];
        assert SameZoneRow(s.zones[i], y);
        PairwiseReplace(s.zones, i, y, ZonePairOk);
        assert t.zones == s.zones[i := y];
        forall x | x in t.zones ensures x.id < t.nextId && x.date in DateIds(t) {
          var j :| 0 <= j < |t.zones| && t.zones[j] == x;
          assert s.zones[j] in s.zones;
        }
      case None =>
        var y := t.zones[|s.zones|];
        assert t.zones == s.zones + [y];
        forall i | 0 <= i < |s.zones| ensures ZonePairOk(s.zones[i], y) {
          assert s.zones[i] in s.zones;
          assert !ZoneKeyed(s.zones[i], key);
        }
        PairwiseAppend(s.zones, y, ZonePairOk);
    }
  }

  lemma {:induction false} ZonesKeepValid(s: Store, dateId: nat, zs: seq<ZoneRecord>)
    requires Valid(s) && dateId in DateIds(s)
    ensures Valid(ReconcileZones(s, dateId, zs).store)
    decreases |zs|
  {
    if |zs| > 0 {
      ZoneKeepsValid(s, dateId, zs[0]);
      match ReconcileZone(s, dateId, zs[0])
      case Aborted(_, _) =>
      case Done(t) =>
        assert DateIds(t) == DateIds(s);
        ZonesKeepValid(t, dateId, zs[1..]);
    }
  }

  lemma SaveDateKeepsValid(s: Store, eventId: nat, d: DateRecord)
    requires Valid(s) && eventId in EventIds(s) && DateFieldsPresent(d)
    ensures Valid(SaveDate(s, eventId, d).0)
    ensures SaveDate(s, eventId, d).1 in DateIds(SaveDate(s, eventId, d).0)
  {
    var (t, dateId) := SaveDate(s, eventId, d);
    var key := d.providerDateId.value;
    var j := FindDate(t, eventId, key).value;
    assert t.dates[j] in t.dates;
    match FindDate(s, eventId, key)
    case Some(i) =>
      assert j == i;
      var y := t.dates[i];
      assert SameDateRow(s.dates[i], y);
      assert t.dates == s.dates[i := y];
      PairwiseReplace(s.dates, i, y, DatePairOk);
      forall x | x in t.dates ensures x.id < t.nextId && x.event in EventIds(t) {
        var k :| 0 <= k < |t.dates| && t.dates[k] == x;
        assert s.dates[k] in s.dates;
      }
      assert DateIds(t) == DateIds(s) by {
        forall x | x in DateIds(s) ensures x in DateIds(t) {
          var e :| e in s.dates && e.id == x;
          var k :| 0 <= k < |s.dates| && s.dates[k] == e;
          assert t.dates[k] in t.dates;
        }
        forall x | x in DateIds(t) ensures x in DateIds(s) {
          var e :| e in t.dates && e.id == x;
          var k :| 0 <= k < |t.dates| && t.dates[k] == e;
          assert s.dates[k] in s.dates;
        }
      }
    case None =>
      var y := t.dates[|s.dates|];
      forall i | 0 <= i < |s.dates| ensures DatePairOk(s.dates[i], y) {
        assert s.dates[i] in s.dates;
        assert !DateKeyed(s.dates[i], eventId, key);
      }
      PairwiseAppend(s.dates, y, DatePairOk);
  }

  lemma DateKeepsValid(s: Store, eventId: nat, d: DateRecord)
    requires Valid(s) && eventId in EventIds(s)
    ensures Valid(ReconcileDate(s, eventId, d).store)
  {
    if DateFieldsPresent(d) {
      SaveDateKeepsValid(s, eventId, d);
      var (t, dateId) := SaveDate(s, eventId, d);
      if d.zones.Some? {
        ZonesKeepValid(t, dateId, d.zones.value);
      }
    }
  }

  lemma {:induction false} DatesKeepValid(s: Store, eventId: nat, ds: seq<DateRecord>)
    requires Valid(s) && eventId in EventIds(s)
    ensures Valid(ReconcileDates(s, eventId, ds).store)
    decreases |ds|
  {
    if |ds| > 0 {
      DateKeepsValid(s, eventId, ds[0]);
      match ReconcileDate(s, eventId, ds[0])
      case Aborted(_, _) =>
      case Done(t) =>
        assert EventIds(t) == EventIds(s);
        DatesKeepValid(t, eventId, ds[1..]);
    }
  }

  /** Appending a new event for a natural key the provider does not have
      yet keeps the store well-formed. */
  lemma NewEventKeepsValid(s: Store, provider: nat, key: nat, title: string, active: bool)
    requires Valid(s) && provider in ProviderIds(s) && FindEvent(s, provider, key).None?
    ensures
      var created := Event(s.nextId, s.nextId, title, active, Some(provider), key);
      Valid(s.(events := s.events + [created], nextId := s.nextId + 1))
  {
    var created := Event(s.nextId, s.nextId, title, active, Some(provider), key);
    var t := s.(events := s.events + [created], nextId := s.nextId + 1);
    forall i | 0 <= i < |s.events| ensures EventPairOk(s.events[i], created) {
      assert s.events[i] in s.events;
      assert !EventKeyed(s.events[i], provider, key);
    }
    PairwiseAppend(s.events, created, EventPairOk);
    assert UniqueKeys(t);
    assert EventIds(t) == EventIds(s) + {created.id};
    assert FreshCounter(t);
  }

  /** The `dates` step keeps a store well-formed once the event exists. */
  lemma EventDatesKeepValid(s: Store, eventId: nat, dates: Option<seq<DateRecord>>)
    requires Valid(s) && eventId in EventIds(s)
    ensures Valid(ReconcileEventDates(s, eventId, dates).store)
  {
    if dates.Some? {
      DatesKeepValid(s, eventId, dates.value);
    }
  }

  lemma FoundEventKeepsValid(s: Store, provider: nat, e: EventRecord)
    requires Valid(s) && provider in ProviderIds(s)
    requires e.providerEventId.Some? && FindEvent(s, provider, e.providerEventId.value).Some?
    ensures Valid(ReconcileEvent(s, provider, e).store)
  {
    var i := FindEvent(s, provider, e.providerEventId.value).value;
    assert s.events[i] in s.events;
    assert ReconcileEvent(s, provider, e) == ReconcileEventDates(s, s.events[i].id, e.dates);
    EventDatesKeepValid(s, s.events[i].id, e.dates);
  }

  lemma CreatedEventKeepsValid(s: Store, provider: nat, e: EventRecord)
    requires Valid(s) && provider in ProviderIds(s)
    requires e.providerEventId.Some? && FindEvent(s, provider, e.providerEventId.value).None?
    requires e.title.Some? && e.active.Some?
    ensures Valid(ReconcileEvent(s, provider, e).store)
  {
    NewEventKeepsValid(s, provider, e.providerEventId.value, e.title.value, e.active.value);
    var t := WithNewEvent(s, provider, e);
    assert t.events[|s.events|] in t.events;
    EventDatesKeepValid(t, s.nextId, e.dates);
  }

  lemma EventKeepsValid(s: Store, provider: nat, e: EventRecord)
    requires Valid(s) && provider in ProviderIds(s)
    ensures Valid(ReconcileEvent(s, provider, e).store)
  {
    if e.providerEventId.Some? {
      if FindEvent(s, provider, e.providerEventId.value).Some? {
        FoundEventKeepsValid(s, provider, e);
      } else if e.title.Some? && e.active.Some? {
        CreatedEventKeepsValid(s, provider, e);
      }
    }
  }

  /** A run over any records, whether it completes or stops at a missing
      key, leaves a well-formed store. */
  lemma {:induction false} SaveResourceKeepsValid(s: Store, provider: nat, records: seq<EventRecord>)
    requires Valid(s) && provider in ProviderIds(s)
    ensures Valid(SaveResource(s, provider, records).store)
    decreases |records|
  {
    if |records| > 0 {
      EventKeepsValid(s, provider, records[0]);
      match ReconcileEvent(s, provider, records[0])
      case Aborted(_, _) =>
      case Done(t) =>
        SaveResourceKeepsValid(t, provider, records[1..]);
    }
  }
}

=== FILE: schema.dfy ===
/** The four tables of the event catalogue and the rules that tie them
    together (`Provider`, `Event`, `EventDate`, `Zone` in
    project/src/event/models.py).

    A table is a sequence of rows in insertion order. Rows are identified
    by an integer `id`; one counter, `nextId`, hands out the ids of new rows
    and also stands for the `created` timestamp of events, so that
    insertion order and creation order agree. `uuid`, `updated` and the
    `created` stamps of the other tables are left out. */
module Schema {
  import opened Optional
  import opened Calendar
  import opened Seqs

  /** A provider; `resource` is its one-to-one `ProviderResource`. */
  datatype Provider = Provider(id: nat, name: string, resource: nat)

  /** An event; `provider` is a nullable reference that outlives the
      provider it names. */
  datatype Event = Event(
    id: nat,
    created: nat,
    title: string,
    active: bool,
    provider: Option<nat>,
    providerEventId: nat)

  /** One performance of an event, with its sale window. */
  datatype EventDate = EventDate(
    id: nat,
    date: DateTime,
    saleStartDate: DateTime,
    saleEndDate: DateTime,
    active: bool,
    event: nat,
    providerDateId: nat)

  /** A seating zone of a date; `price` is in cents and `rest` is the
      number of places still for sale. */
  datatype Zone = Zone(
    id: nat,
    name: string,
    capacity: nat,
    rest: nat,
    price: int,
    numbered: bool,
    date: nat,
    providerZoneId: nat)

  datatype Store = Store(
    providers: seq<Provider>,
    events: seq<Event>,
    dates: seq<EventDate>,
    zones: seq<Zone>,
    nextId: nat)

  function ProviderIds(s: Store): set<nat> {
    set p | p in s.providers :: p.id
  }

  function EventIds(s: Store): set<nat> {
    set e | e in s.events :: e.id
  }

  function DateIds(s: Store): set<nat> {
    set d | d in s.dates :: d.id
  }

  /** The ids of the dates that belong to event `eventId`. */
  function DatesOf(s: Store, eventId: nat): set<nat> {
    set d | d in s.dates && d.event == eventId :: d.id
  }

  // ---------------------------------------------------------------------
  // Well-formedness of a store

  /** Distinct ids, and a provider resource feeds at most one provider. */
  predicate ProviderPairOk(a: Provider, b: Provider) {
    a.id != b.id && a.resource != b.resource
  }

  /** `a` was created before `b`. */
  predicate CreatedBefore(a: Event, b: Event) {
    a.created < b.created
  }

  /** Distinct ids, creation order, and at most one event per
      (provider, provider_event_id); events whose provider was removed are
      no longer keyed. */
  predicate EventPairOk(a: Event, b: Event) {
    && a.id != b.id
    && CreatedBefore(a, b)
    && !(a.provider.Some? && a.provider == b.provider && a.providerEventId == b.providerEventId)
  }

  /** Distinct ids and at most one date per (event, provider_date_id). */
  predicate DatePairOk(a: EventDate, b: EventDate) {
    a.id != b.id && (a.event != b.event || a.providerDateId != b.providerDateId)
  }

  /** Distinct ids and at most one zone per provider_zone_id, across all
      dates. */
  predicate ZonePairOk(a: Zone, b: Zone) {
    a.id != b.id && a.providerZoneId != b.providerZoneId
  }

  ghost predicate UniqueKeys(s: Store) {
    && Pairwise(s.providers, ProviderPairOk)
    && Pairwise(s.events, EventPairOk)
    && Pairwise(s.dates, DatePairOk)
    && Pairwise(s.zones, ZonePairOk)
  }

  /** Every id and creation stamp in use is below the counter. */
  ghost predicate FreshCounter(s: Store) {
    && (forall e :: e in s.events ==> e.id < s.nextId && e.created < s.nextId)
    && (forall d :: d in s.dates ==> d.id < s.nextId)
    && (forall z :: z in s.zones ==> z.id < s.nextId)
  }

  /** No reference dangles: an event's provider (when set), a date's event
      and a zone's date all exist. */
  ghost predicate Referential(s: Store) {
    && (forall e :: e in s.events && e.provider.Some? ==> e.provider.value in ProviderIds(s))
    && (forall d :: d in s.dates ==> d.event in EventIds(s))
    && (forall z :: z in s.zones ==> z.date in DateIds(s))
  }

  ghost predicate Valid(s: Store) {
    UniqueKeys(s) && FreshCounter(s) && Referential(s)
  }

  // ---------------------------------------------------------------------
  // Growth of a store

  /** A date row is the same row when its identity, owner, natural key
      and active flag are unchanged; the reconciler may rewrite its
      timestamps. */
  predicate SameDateRow(a: EventDate, b: EventDate) {
    a.id == b.id && a.event == b.event && a.providerDateId == b.providerDateId && a.active == b.active
  }

  /** A zone row is the same row when everything but `rest` is
      unchanged. */
  predicate SameZoneRow(a: Zone, b: Zone) {
    a == b.(rest := a.rest)
  }

  /** `t` is `s` with rows appended and with date timestamps and zone
      `rest` counts possibly rewritten: nothing is removed, no event row is
      touched, and no row changes identity or natural key. */
  ghost predicate Extends(s: Store, t: Store) {
    && t.providers == s.providers
    && s.events <= t.events
    && |s.dates| <= |t.dates|
    && (forall i :: 0 <= i < |s.dates| ==> SameDateRow(s.dates[i], t.dates[i]))
    && |s.zones| <= |t.zones|
    && (forall i :: 0 <= i < |s.zones| ==> SameZoneRow(s.zones[i], t.zones[i]))
    && s.nextId <= t.nextId
  }

  lemma ExtendsTransitive(s: Store, t: Store, u: Store)
    requires Extends(s, t) && Extends(t, u)
    ensures Extends(s, u)
  {
    assert forall i :: 0 <= i < |s.dates| ==> SameDateRow(s.dates[i], t.dates[i]) && SameDateRow(t.dates[i], u.dates[i]);
    assert forall i :: 0 <= i < |s.zones| ==> SameZoneRow(s.zones[i], t.zones[i]) && SameZoneRow(t.zones[i], u.zones[i]);
  }

  // ---------------------------------------------------------------------
  // Ownership: what deleting a row does to the rows that refer to it

  /** Deleting an event cascades to its dates and, through them, to their
      zones; nothing else is removed. */
  function DeleteEvent(s: Store, eventId: nat): (t: Store)
    ensures forall e :: e in t.events <==> e in s.events && e.id != eventId
    ensures forall d :: d in t.dates <==> d in s.dates && d.event != eventId
    ensures forall z :: z in t.zones <==> z in s.zones && z.date !in DatesOf(s, eventId)
    ensures t.providers == s.providers && t.nextId == s.nextId
    ensures Pairwise(s.events, EventPairOk) ==> Pairwise(t.events, EventPairOk)
    ensures Pairwise(s.dates, DatePairOk) ==> Pairwise(t.dates, DatePairOk)
    ensures Pairwise(s.zones, ZonePairOk) ==> Pairwise(t.zones, ZonePairOk)
  {
    var gone := DatesOf(s, eventId);
    var events := Filter(s.events, (e: Event) => e.id != eventId);
    var dates := Filter(s.dates, (d: EventDate) => d.event != eventId);
    var zones := Filter(s.zones, (z: Zone) => z.date !in gone);
    assert Pairwise(s.events, EventPairOk) ==> Pairwise(events, EventPairOk);
    assert Pairwise(s.dates, DatePairOk) ==> Pairwise(dates, DatePairOk);
    assert Pairwise(s.zones, ZonePairOk) ==> Pairwise(zones, ZonePairOk);
    Store(s.providers, events, dates, zones, s.nextId)
  }

  /** The cascade leaves no dangling reference behind: every surviving
      date still has its event and every surviving zone its date. */
  lemma DeleteEventKeepsValid(s: Store, eventId: nat)
    requires Valid(s)
    ensures Valid(DeleteEvent(s, eventId))
  {
    var t := DeleteEvent(s, eventId);
    forall d | d in t.dates ensures d.event in EventIds(t) {
      var e :| e in s.events && e.id == d.event;
      assert e in t.events;
    }
    forall z | z in t.zones ensures z.date in DateIds(t) {
      var d :| d in s.dates && d.id == z.date;
      assert d in t.dates;
    }
  }

  /** Every event of `events` whose provider is in `gone`, with that
      reference set to null. */
  function Nullify(events: seq<Event>, gone: set<nat>): (r: seq<Event>)
    ensures |r| == |events|
    ensures forall i :: 0 <= i < |r| ==> r[i].(provider := events[i].provider) == events[i]
    ensures forall i :: 0 <= i < |r| ==> r[i].provider.Some? ==> r[i].provider == events[i].provider
    ensures forall i :: 0 <= i < |r| ==> (r[i].provider.Some? <==> events[i].provider.Some? && events[i].provider.value !in gone)
    ensures forall i :: 0 <= i < |r| ==>
      r[i].provider == if events[i].provider.Some? && events[i].provider.value in gone then None else events[i].provider
  {
    seq(|events|, i requires 0 <= i < |events| =>
      if events[i].provider.Some? && events[i].provider.value in gone then events[i].(provider := None) else events[i])
  }

  lemma NullifyKeepsPairs(events: seq<Event>, gone: set<nat>)
    requires Pairwise(events, EventPairOk)
    ensures Pairwise(Nullify(events, gone), EventPairOk)
  {
    var r := Nullify(events, gone);
    forall i, j | 0 <= i < j < |r| ensures EventPairOk(r[i], r[j]) {
      assert EventPairOk(events[i], events[j]);
    }
  }

  /** The store `DetachProviders` builds is well-formed when the store it
      started from is. */
  lemma DetachedStoreValid(s: Store, gone: set<nat>, t: Store)
    requires Valid(s)
    requires forall p :: p in t.providers <==> p in s.providers && p.id !in gone
    requires Pairwise(t.providers, ProviderPairOk)
    requires t.events == Nullify(s.events, gone)
    requires t.dates == s.dates && t.zones == s.zones && t.nextId == s.nextId
    ensures Valid(t)
  {
    NullifyKeepsPairs(s.events, gone);
    forall e | e in t.events ensures e.id < t.nextId && e.created < t.nextId {
      var i :| 0 <= i < |t.events| && t.events[i] == e;
      assert s.events[i] in s.events;
    }
    forall e | e in t.events && e.provider.Some? ensures e.provider.value in ProviderIds(t) {
      var i :| 0 <= i < |t.events| && t.events[i] == e;
      assert s.events[i] in s.events;
      var p :| p in s.providers && p.id == e.provider.value;
      assert p in t.providers;
    }
    assert EventIds(t) == EventIds(s) by {
      forall x | x in EventIds(s) ensures x in EventIds(t) {
        var e :| e in s.events && e.id == x;
        var i :| 0 <= i < |s.events| && s.events[i] == e;
        assert t.events[i] in t.events;
      }
      forall x | x in EventIds(t) ensures x in EventIds(s) {
        var e :| e in t.events && e.id == x;
        var i :| 0 <= i < |t.events| && t.events[i] == e;
        assert s.events[i] in s.events;
      }
    }
  }

  /** Removes the providers whose ids are in `gone`; their events stay,
      with the provider reference set to null. */
  function DetachProviders(s: Store, gone: set<nat>): (t: Store)
    ensures forall p :: p in t.providers <==> p in s.providers && p.id !in gone
    ensures |t.events| == |s.events|
    ensures forall i :: 0 <= i < |t.events| ==> t.events[i].(provider := s.events[i].provider) == s.events[i]
    ensures forall i :: 0 <= i < |t.events| ==>
      t.events[i].provider == if s.events[i].provider.Some? && s.events[i].provider.value in gone then None else s.events[i].provider
    ensures forall e :: e in t.events && e.provider.Some? ==> e.provider.value !in gone
    ensures t.dates == s.dates && t.zones == s.zones && t.nextId == s.nextId
    ensures Valid(s) ==> Valid(t)
  {
    var t := Store(Filter(s.providers, (p: Provider) => p.id !in gone), Nullify(s.events, gone), s.dates, s.zones, s.nextId);
    assert Valid(s) ==> Valid(t) by {
      if Valid(s) {
        DetachedStoreValid(s, gone, t);
      }
    }
    t
  }

  /** Deleting a provider keeps every one of its events (on_delete
      SET_NULL). */
  function DeleteProvider(s: Store, providerId: nat): (t: Store)
    ensures providerId !in ProviderIds(t)
    ensures forall p :: p in t.providers <==> p in s.providers && p.id != providerId
    ensures |t.events| == |s.events|
    ensures forall i :: 0 <= i < |t.events| ==> t.events[i].(provider := s.events[i].provider) == s.events[i]
    ensures forall i :: 0 <= i < |t.events| ==> t.events[i].provider == if s.events[i].provider == Some(providerId) then None else s.events[i].provider
    ensures t.dates == s.dates && t.zones == s.zones && t.nextId == s.nextId
    ensures Valid(s) ==> Valid(t)
  {
    DetachProviders(s, {providerId})
  }

  /** The ids of the providers fed by resource `resourceId`. */
  function FedBy(s: Store, resourceId: nat): set<nat> {
    set p | p in s.providers && p.resource == resourceId :: p.id
  }

  /** Deleting a provider resource deletes the provider it feeds
      (one-to-one, on_delete CASCADE), which in turn detaches its events. */
  function DeleteProviderResource(s: Store, resourceId: nat): (t: Store)
    ensures forall p :: p in t.providers ==> p in s.providers && p.resource != resourceId
    ensures Valid(s) ==> forall p :: p in s.providers && p.resource != resourceId ==> p in t.providers
    ensures |t.events| == |s.events|
    ensures forall i :: 0 <= i < |t.events| ==> t.events[i].(provider := s.events[i].provider) == s.events[i]
    ensures forall i :: 0 <= i < |t.events| ==>
      t.events[i].provider == if s.events[i].provider.Some? && s.events[i].provider.value in FedBy(s, resourceId) then None else s.events[i].provider
    ensures t.dates == s.dates && t.zones == s.zones && t.nextId == s.nextId
    ensures Valid(s) ==> Valid(t)
  {
    var gone := FedBy(s, resourceId);
    assert Valid(s) ==> forall p :: p in s.providers && p.resource != resourceId ==> p.id !in gone by {
      if Valid(s) {
        forall p | p in s.providers && p.resource != resourceId ensures p.id !in gone {
          forall q | q in s.providers && q.resource == resourceId ensures q.id != p.id {
            var i :| 0 <= i < |s.providers| && s.providers[i] == p;
            var j :| 0 <= j < |s.providers| && s.providers[j] == q;
            if i < j { assert ProviderPairOk(s.providers[i], s.providers[j]); }
            else { assert ProviderPairOk(s.providers[j], s.providers[i]); }
          }
        }
      }
    }
    DetachProviders(s, gone)
  }

  // ---------------------------------------------------------------------
  // Derived state

  /** Some zone of date `dateId` still has places for sale. */
  function AnyZoneLeft(zones: seq<Zone>, dateId: nat): (r: bool)
    ensures r <==> exists i :: 0 <= i < |zones| && zones[i].date == dateId && zones[i].rest > 0
  {
    if |zones| == 0 then false
    else (zones[0].date == dateId && zones[0].rest > 0) || AnyZoneLeft(zones[1..], dateId)
  }

  /** `EventDate.is_sold_out`: no zone of the date has a place left. A
      date without zones is sold out. */
  function IsSoldOut(s: Store, d: EventDate): (r: bool)
    ensures r <==> forall z :: z in s.zones && z.date == d.id ==> z.rest == 0
  {
    !AnyZoneLeft(s.zones, d.id)
  }
}

=== FILE: seqs.dfy ===
/** Order-preserving filtering of table rows, and pairwise invariants that
    survive it. */
module Seqs {
  import opened Optional

  /** Every earlier element stands in relation `ok` to every later one. */
  ghost predicate Pairwise<T>(xs: seq<T>, ok: (T, T) -> bool) {
    forall i, j :: 0 <= i < j < |xs| ==> ok(xs[i], xs[j])
  }

  lemma PairwiseCons<T>(x: T, xs: seq<T>, rest: seq<T>, ok: (T, T) -> bool)
    requires Pairwise([x] + xs, ok) && Pairwise(rest, ok)
    requires forall y :: y in rest ==> y in xs
    ensures Pairwise([x] + rest, ok)
  {
    var r := [x] + rest;
    forall i, j | 0 <= i < j < |r| ensures ok(r[i], r[j]) {
      if i == 0 {
        assert r[j] in xs;
        var m :| 0 <= m < |xs| && xs[m] == r[j];
        var full := [x] + xs;
        assert full[0] == x == r[0] && full[m + 1] == r[j];
        assert ok(full[0], full[m + 1]);
      } else {
        assert r[i] == rest[i - 1] && r[j] == rest[j - 1];
        assert ok(rest[i - 1], rest[j - 1]);
      }
    }
  }

  /** The elements of `xs` that satisfy `keep`, in their original order. */
  function Filter<T(!new)>(xs: seq<T>, keep: T -> bool): (r: seq<T>)
    ensures |r| <= |xs|
    ensures forall x :: x in r <==> x in xs && keep(x)
    ensures forall ok: (T, T) -> bool :: Pairwise(xs, ok) ==> Pairwise(r, ok)
  {
    if |xs| == 0 then []
    else
      var rest := Filter(xs[1..], keep);
      if keep(xs[0]) then
        assert forall ok: (T, T) -> bool :: Pairwise(xs, ok) ==> Pairwise([xs[0]] + rest, ok) by {
          forall ok: (T, T) -> bool | Pairwise(xs, ok) ensures Pairwise([xs[0]] + rest, ok) {
            assert xs == [xs[0]] + xs[1..];
            assert Pairwise(xs[1..], ok);
            PairwiseCons(xs[0], xs[1..], rest, ok);
          }
        }
        [xs[0]] + rest
      else
        assert forall ok: (T, T) -> bool :: Pairwise(xs, ok) ==> Pairwise(xs[1..], ok);
        rest
  }

  /** Filtering keeps every passing row as often as it occurs and drops
      every other row. */
  lemma {:induction false} FilterCounts<T(!new)>(xs: seq<T>, keep: T -> bool)
    ensures forall x :: multiset(Filter(xs, keep))[x] == if keep(x) then multiset(xs)[x] else 0
  {
    if |xs| > 0 {
      FilterCounts(xs[1..], keep);
      assert xs == [xs[0]] + xs[1..];
    }
  }

  /** Filtering with a predicate that no element meets yields nothing. */
  lemma {:induction false} FilterNone<T(!new)>(xs: seq<T>, keep: T -> bool)
    requires forall i :: 0 <= i < |xs| ==> !keep(xs[i])
    ensures Filter(xs, keep) == []
  {
    if |xs| > 0 {
      FilterNone(xs[1..], keep);
    }
  }

  /** The position of the first element satisfying `p`, if any: the row
      `.first()` returns from a query over rows kept in this order. */
  function FindFirst<T>(xs: seq<T>, p: T -> bool): (r: Option<nat>)
    ensures r.Some? ==> r.value < |xs| && p(xs[r.value])
    ensures r.Some? ==> forall j :: 0 <= j < r.value ==> !p(xs[j])
    ensures r.None? ==> forall j :: 0 <= j < |xs| ==> !p(xs[j])
  {
    if |xs| == 0 then None
    else if p(xs[0]) then Some(0)
    else
      match FindFirst(xs[1..], p)
      case None => None
      case Some(i) => Some(i + 1)
  }

  lemma PairwiseAppend<T>(xs: seq<T>, x: T, ok: (T, T) -> bool)
    requires Pairwise(xs, ok)
    requires forall i :: 0 <= i < |xs| ==> ok(xs[i], x)
    ensures Pairwise(xs + [x], ok)
  {
    var r := xs + [x];
    forall i, j | 0 <= i < j < |r| ensures ok(r[i], r[j]) {
      assert r[i] == xs[i];
      if j < |xs| {
        assert r[j] == xs[j];
      }
    }
  }

  lemma PairwiseReplace<T>(xs: seq<T>, k: nat, y: T, ok: (T, T) -> bool)
    requires Pairwise(xs, ok) && k < |xs|
    requires forall i :: 0 <= i < k ==> ok(xs[i], y)
    requires forall j :: k < j < |xs| ==> ok(y, xs[j])
    ensures Pairwise(xs[k := y], ok)
  {
    var r := xs[k := y];
    forall i, j | 0 <= i < j < |r| ensures ok(r[i], r[j]) {
      if i != k && j != k {
        assert r[i] == xs[i] && r[j] == xs[j];
      }
    }
  }
}

=== FILE: services.dfy ===
/** The optional date filter of the listing endpoint (`check_date`).

    `check_date` hands its argument to `datetime.strptime(date, "%Y-%m-%d")`
    and converts the naive midnight it gets back into an aware datetime in
    the current time zone, from which it takes the calendar day again. A
    `None` argument makes `strptime` raise `TypeError`; text that does not
    match the format, or names a day the calendar does not have, makes it
    raise `ValueError`. Both are caught and turned into `None`, so parsing
    never fails. The time-zone step is taken to succeed: with pytz it can
    raise errors the function does not catch, at a midnight a
    daylight-saving change skips or repeats and at the ends of the
    calendar, depending on the configured zone, which this model leaves out.

    `strptime` builds its matcher from these fragments of Python's
    `_strptime` module, anchored at the start of the text and required to
    consume all of it:
      %Y  four digits
      %m  `1[0-2]|0[1-9]|[1-9]`
      %d  `3[01]|[12]\d|0[1-9]|[1-9]| [1-9]`
    so unpadded months and days, and a day padded with a space, are
    accepted too. The day is then checked against the month, and year 0 is
    refused by `datetime`. */
module Services {
  import opened Optional
  import opened Calendar

  predicate IsDigit(c: char) {
    '0' <= c <= '9'
  }

  function DigitValue(c: char): (n: int)
    requires IsDigit(c)
    ensures 0 <= n <= 9
  {
    c as int - '0' as int
  }

  function DigitChar(n: int): (c: char)
    requires 0 <= n <= 9
    ensures IsDigit(c) && DigitValue(c) == n
  {
    ('0' as int + n) as char
  }

  /** Two ASCII digits read as a number from 0 to 99. */
  function TwoDigits(t: string): Option<int> {
    if |t| == 2 && IsDigit(t[0]) && IsDigit(t[1]) then
      Some(10 * DigitValue(t[0]) + DigitValue(t[1]))
    else
      None
  }

  /** `%Y`: exactly four ASCII digits. */
  function YearField(t: string): Option<int> {
    if |t| == 4 && TwoDigits(t[..2]).Some? && TwoDigits(t[2..]).Some? then
      Some(100 * TwoDigits(t[..2]).value + TwoDigits(t[2..]).value)
    else
      None
  }

  /** `%m`: the text between the two dashes is one of `10`-`12`,
      `01`-`09` or `1`-`9`. */
  function MonthField(t: string): Option<int> {
    if |t| == 1 && '1' <= t[0] <= '9' then
      Some(DigitValue(t[0]))
    else if |t| == 2 && t[0] == '1' && '0' <= t[1] <= '2' then
      Some(10 + DigitValue(t[1]))
    else if |t| == 2 && t[0] == '0' && '1' <= t[1] <= '9' then
      Some(DigitValue(t[1]))
    else
      None
  }

  /** `%d`: the rest of the text is one of `30`, `31`, `10`-`29`,
      `01`-`09`, `1`-`9` or a space followed by `1`-`9`. Because the
      matcher must consume the whole text, the alternative it picks is the
      whole remainder. */
  function DayField(t: string): Option<int> {
    if |t| == 1 && '1' <= t[0] <= '9' then
      Some(DigitValue(t[0]))
    else if |t| == 2 && t[0] == '3' && '0' <= t[1] <= '1' then
      Some(30 + DigitValue(t[1]))
    else if |t| == 2 && '1' <= t[0] <= '2' && IsDigit(t[1]) then
      Some(10 * DigitValue(t[0]) + DigitValue(t[1]))
    else if |t| == 2 && (t[0] == '0' || t[0] == ' ') && '1' <= t[1] <= '9' then
      Some(DigitValue(t[1]))
    else
      None
  }

  /** Splits the text after `YYYY-` at the dash that ends the month. A
      month is one or two digits, so that dash is the second or the third
      character. */
  function SplitMonth(t: string): Option<(string, string)> {
    if |t| >= 2 && t[1] == '-' then Some((t[..1], t[2..]))
    else if |t| >= 3 && t[2] == '-' then Some((t[..2], t[3..]))
    else None
  }

  /** `datetime.strptime(s, "%Y-%m-%d").date()`, with `None` standing for
      the `ValueError` it raises. */
  function Strptime(s: string): (r: Option<Date>)
    ensures r.Some? ==> ValidDate(r.value)
    ensures r.Some? ==> 8 <= |s| <= 10 && s[4] == '-' && YearField(s[..4]) == Some(r.value.year)
  {
    if |s| < 5 || s[4] != '-' then None
    else
      match (YearField(s[..4]), SplitMonth(s[5..]))
      case (Some(y), Some((mt, dt))) =>
        (match (MonthField(mt), DayField(dt))
         case (Some(m), Some(d)) =>
           if 1 <= y && d <= DaysInMonth(y, m) then Some(Date(y, m, d)) else None
         case _ => None)
      case _ => None
  }

  /** `check_date`: an absent parameter or any text `strptime` refuses
      gives `None`; otherwise the calendar day it names. Attaching the
      current time zone to a naive midnight and taking `.date()` again
      leaves the day unchanged when it succeeds, so it is the identity
      here. */
  function CheckDate(param: Option<string>): (r: Option<Date>)
    ensures param.None? ==> r.None?
    ensures r.Some? ==> ValidDate(r.value)
  {
    match param
    case None => None
    case Some(s) => Strptime(s)
  }

  function Pad2(n: int): (t: string)
    requires 0 <= n <= 99
    ensures |t| == 2
  {
    [DigitChar(n / 10), DigitChar(n % 10)]
  }

  function Pad4(n: int): (t: string)
    requires 0 <= n <= 9999
    ensures |t| == 4
  {
    Pad2(n / 100) + Pad2(n % 100)
  }

  /** `date.strftime("%Y-%m-%d")` with every field zero-padded, as the
      integration tests build their query strings. */
  function FormatDate(d: Date): (s: string)
    requires ValidDate(d)
    ensures |s| == 10
  {
    Pad4(d.year) + "-" + Pad2(d.month) + "-" + Pad2(d.day)
  }

  /** The spellings `%m` accepts for month `m`. */
  predicate MonthSpelling(t: string, m: int)
    requires 1 <= m <= 12
  {
    t == Pad2(m) || (m <= 9 && t == [DigitChar(m)])
  }

  /** The spellings `%d` accepts for day `d`. */
  predicate DaySpelling(t: string, d: int)
    requires 1 <= d <= 31
  {
    t == Pad2(d) || (d <= 9 && (t == [DigitChar(d)] || t == [' ', DigitChar(d)]))
  }

  /** `s` is one way of writing the real calendar day `d` in the format
      `%Y-%m-%d`: the zero-padded year, a dash, a spelling of the month
      ending at position `k`, a dash, and a spelling of the day. */
  predicate Spells(s: string, d: Date) {
    && ValidDate(d)
    && |s| >= 5
    && s[..4] == Pad4(d.year)
    && s[4] == '-'
    && exists k :: 5 <= k < |s| && s[k] == '-' && MonthSpelling(s[5..k], d.month) && DaySpelling(s[k + 1..], d.day)
  }

  lemma DigitRoundTrip(c: char)
    requires IsDigit(c)
    ensures DigitChar(DigitValue(c)) == c
  {
  }

  lemma SplitDecimal(a: int, b: int, base: int)
    requires base == 10 || base == 100
    requires 0 <= a < base && 0 <= b < base
    ensures (base * a + b) / base == a && (base * a + b) % base == b
  {
  }

  lemma TwoDigitsInverse(t: string, n: int)
    requires 0 <= n <= 99
    ensures TwoDigits(t) == Some(n) <==> t == Pad2(n)
  {
    if TwoDigits(t) == Some(n) {
      DigitRoundTrip(t[0]);
      DigitRoundTrip(t[1]);
      SplitDecimal(DigitValue(t[0]), DigitValue(t[1]), 10);
      assert t == [t[0], t[1]];
    }
  }

  /** The four-digit year field reads back what `Pad4` wrote, and every
      year it accepts is written that way. */
  lemma YearFieldInverse(t: string, n: int)
    requires 0 <= n <= 9999
    ensures YearField(t) == Some(n) <==> t == Pad4(n)
  {
    if YearField(t) == Some(n) {
      var hi, lo := TwoDigits(t[..2]).value, TwoDigits(t[2..]).value;
      SplitDecimal(hi, lo, 100);
      TwoDigitsInverse(t[..2], hi);
      TwoDigitsInverse(t[2..], lo);
      assert t == t[..2] + t[2..];
    }
    if t == Pad4(n) {
      assert t[..2] == Pad2(n / 100) && t[2..] == Pad2(n % 100);
      TwoDigitsInverse(t[..2], n / 100);
      TwoDigitsInverse(t[2..], n % 100);
    }
  }

  lemma MonthFieldSpec(t: string, m: int)
    requires 1 <= m <= 12
    ensures MonthField(t) == Some(m) <==> MonthSpelling(t, m)
  {
    if |t| == 1 && IsDigit(t[0]) {
      DigitRoundTrip(t[0]);
      assert t == [t[0]];
    } else if |t| == 2 && IsDigit(t[0]) && IsDigit(t[1]) {
      DigitRoundTrip(t[0]);
      DigitRoundTrip(t[1]);
      assert t == [t[0], t[1]];
    }
  }

  lemma DayFieldSpec(t: string, d: int)
    requires 1 <= d <= 31
    ensures DayField(t) == Some(d) <==> DaySpelling(t, d)
  {
    if |t| == 1 && IsDigit(t[0]) {
      DigitRoundTrip(t[0]);
      assert t == [t[0]];
    } else if |t| == 2 && IsDigit(t[1]) {
      DigitRoundTrip(t[1]);
      if IsDigit(t[0]) {
        DigitRoundTrip(t[0]);
      }
      assert t == [t[0], t[1]];
    }
  }

  lemma MonthFieldRange(t: string)
    ensures MonthField(t).Some? ==> 1 <= MonthField(t).value <= 12
  {
  }

  lemma DayFieldRange(t: string)
    ensures DayField(t).Some? ==> 1 <= DayField(t).value <= 31
  {
  }

  lemma AcceptedIsSpelled(s: string, d: Date)
    requires Strptime(s) == Some(d)
    ensures Spells(s, d)
  {
    var (mt, dt) := SplitMonth(s[5..]).value;
    var k := 5 + |mt|;
    MonthFieldRange(mt);
    DayFieldRange(dt);
    YearFieldInverse(s[..4], d.year);
    MonthFieldSpec(mt, d.month);
    DayFieldSpec(dt, d.day);
    assert s[5..k] == mt && s[k] == '-' && s[k + 1..] == dt;
  }

  lemma SpelledIsAccepted(s: string, d: Date)
    requires Spells(s, d)
    ensures Strptime(s) == Some(d)
  {
    var k :| 5 <= k < |s| && s[k] == '-' && MonthSpelling(s[5..k], d.month) && DaySpelling(s[k + 1..], d.day);
    YearFieldInverse(s[..4], d.year);
    MonthFieldSpec(s[5..k], d.month);
    DayFieldSpec(s[k + 1..], d.day);
    assert k == 6 || (k == 7 && s[6] != '-');
    var t := s[5..];
    assert t[k - 5] == '-' && t[..k - 5] == s[5..k] && t[k - 4..] == s[k + 1..];
    assert SplitMonth(t) == Some((s[5..k], s[k + 1..]));
  }

  /** Exactly the spellings of real calendar days are accepted, and each is
      read as the day it spells: `check_date` never accepts anything else
      and never misreads a date. */
  lemma CheckDateSpells(s: string, d: Date)
    ensures CheckDate(Some(s)) == Some(d) <==> Spells(s, d)
  {
    if CheckDate(Some(s)) == Some(d) {
      AcceptedIsSpelled(s, d);
    }
    if Spells(s, d) {
      SpelledIsAccepted(s, d);
    }
  }

  /** Formatting a real day as `YYYY-MM-DD` and passing the text to
      `check_date` gives the same day back. */
  lemma CheckDateRoundTrip(d: Date)
    requires ValidDate(d)
    ensures CheckDate(Some(FormatDate(d))) == Some(d)
  {
    var s := FormatDate(d);
    assert s[..4] == Pad4(d.year);
    assert s[5..7] == Pad2(d.month);
    assert s[8..] == Pad2(d.day);
    assert MonthSpelling(s[5..7], d.month);
    assert Spells(s, d);
    CheckDateSpells(s, d);
  }

  /** A zero-padded ten-character spelling is the formatted date itself,
      so on such text `check_date` and `FormatDate` are inverse. */
  lemma CheckDateCanonical(s: string, d: Date)
    requires CheckDate(Some(s)) == Some(d)
    requires |s| == 10 && s[8] != ' '
    ensures s == FormatDate(d)
  {
    CheckDateSpells(s, d);
    var k :| 5 <= k < |s| && s[k] == '-' && MonthSpelling(s[5..k], d.month) && DaySpelling(s[k + 1..], d.day);
    assert k == 7;
    assert s == s[..4] + "-" + s[5..7] + "-" + s[8..];
  }

  /** Text that is not a date at all, a month 13 and a 30th of February
      are all refused, without an error. */
  lemma CheckDateRefuses()
    ensures CheckDate(Some("sda")) == None
    ensures CheckDate(Some("2019-13-01")) == None
    ensures CheckDate(Some("2019-02-30")) == None
    ensures CheckDate(Some("0000-01-01")) == None
  {
    var s := "2019-13-01";
    var t := s[5..];
    assert t == "13-01" && t[..2] == "13" && t[3..] == "01";
    assert SplitMonth(t) == Some(("13", "01"));
    assert MonthField("13") == None;
    s := "2019-02-30";
    assert s[..4] == "2019" && s[..4][..2] == "20" && s[..4][2..] == "19";
    assert YearField(s[..4]) == Some(2019);
    t := s[5..];
    assert t == "02-30" && t[..2] == "02" && t[3..] == "30";
    assert SplitMonth(t) == Some(("02", "30"));
    assert MonthField("02") == Some(2) && DayField("30") == Some(30);
    assert DaysInMonth(2019, 2) == 28;
    s := "0000-01-01";
    assert s[..4] == "0000" && s[..4][..2] == "00" && s[..4][2..] == "00";
    assert YearField(s[..4]) == Some(0);
  }
}
